=== FILE: README.md ===
# News ingestion and dedup pipeline, modelled in Dafny

This project models the ingestion side of a small news aggregator. The aggregator
pulls headlines from four kinds of source:

- a Google-News-style sitemap, which is the particle.news sitemap;
- Google News RSS 2.0 feeds;
- Reddit Atom feeds;
- Reddit JSON listings.

It normalizes every headline to one `Article` record and stores it in a Redis
list. The list is deduplicated by url through a Redis set of url digests. The
feed endpoint reads the list back newest first. The web page then groups the
articles into timeline buckets ("Latest", "N Hours Ago", a calendar date).

The modules follow the source files:

- `Common`: the outcome types the source expresses with `undefined`, exceptions,
  `Promise.allSettled` and `fetch`. Also the xml2js idioms `xs?.[0]` and
  `xs?.[0] || ys?.[0]`.
- `Strings`: the ECMAScript `split` on one character, `trim`, and the decimal
  rendering of a number in a template literal.
- `Kv` (src/lib/kv.ts): the store, `addArticle` as insert-if-new, and
  `getArticles` as Redis `LRANGE` with its negative-index rule.
- `Sorting`: the stable `Array.prototype.sort` on `published_at`, used oldest
  first by the update route and newest first by the feed route.
- `Parser` (src/lib/parser.ts): the sitemap entries to news items.
- `GoogleNews` (src/lib/google-news.ts): the feed adapter.
- `RedditRss` (src/lib/reddit-rss.ts): the feed adapter.
- `Reddit` (src/lib/reddit.ts): the listing adapter.
- `UpdateRoute` (src/app/api/update/route.ts): settled results to candidates and
  per-group counts, then the oldest-first sort, the insertion loop and the
  summary.
- `FeedRoute` (src/app/api/feed/route.ts): the read and the newest-first sort.
  Also the properties that join the two routes.
- `Timeline` (src/app/components/Feed.tsx, the `smartGroups` computation): bucket
  titles by age, and run-length grouping of consecutive equal titles.

Several inputs become parameters of the model:

- Every network exchange becomes a `Fetch<T>` parameter: a network error, or an
  HTTP status with a body that the XML or JSON parser either turned into a tree
  (`Some`) or rejected (`None`).
- The current instant is a parameter `now` in milliseconds.
- An unreachable store is `None`.
- A date text in a parsed tree is a `DateText`: the text together with the
  instant the date library reads from it.
- The calendar label of an old article is a function parameter. Its only
  property used is that it contains a comma, as every `MMMM d, yyyy` label does.

Four facts about the code shape the model:

- Only `TECHNOLOGY` has a feed of its own. Every other topic, including the
  science and artificial intelligence requests, fetches the top-stories feed
  (`UpdateRoute.TopicsShareTopStories`).
- The update route calls only the Atom Reddit adapter. The JSON adapter
  (`Reddit`) is modelled on its own and is not part of `UpdateRoute.Run`.
- A sitemap entry that has a news block but no `loc` element throws while it is
  mapped. That loses the whole sitemap for the run (`Parser.MapEntry`,
  `UpdateRoute.ParticleArticles`). Only an entry whose `loc` is empty is filtered.
- The store is touched only by `addArticle`. A run with no candidates therefore
  answers `ok` even when the store is unreachable (`UpdateRoute.Run`).

## Model

| member | source | states |
|---|---|---|
| Common.First | src/lib/google-news.ts:44 | `xs?.[0]` is present exactly when the array is non-empty, and is then its first element |
| Common.FirstText | src/lib/google-news.ts:43 | `xs?.[0]` used as a truth value on a string: present exactly when the first element exists and is not the empty string |
| Common.FirstDate | src/lib/google-news.ts:45 | the same truth test on a date element, decided by its text |
| Common.OrElse | src/lib/parser.ts:47 | the JavaScript or-operator on optional values: present if either is, and the first one present wins |
| Common.Or | src/lib/parser.ts:50 | `x || fallback` on an optional value: the value when it is present, the fallback otherwise |
| Strings.Trim | src/lib/parser.ts:52 | `trim` gives a string with no whitespace at either end, built only from the input's characters |
| Strings.TrimRemovesOnlyWhitespace | src/lib/parser.ts:52 | the input is the trimmed string wrapped in two all-whitespace strings |
| Strings.TrimTrimmed | src/lib/parser.ts:52 | trimming a string that is already trimmed changes nothing |
| Strings.Split | src/lib/parser.ts:52 | `split(',')` gives at least one piece, no piece contains the separator, and joining the pieces with the separator gives back the input |
| Strings.SplitNoSeparator | src/lib/parser.ts:52 | a string without the separator splits into itself alone |
| Strings.SplitAtSeparator | src/lib/parser.ts:52 | splitting at the first separator peels off the piece before it |
| Strings.SplitJoin | src/lib/parser.ts:52 | `split` inverts joining separator-free pieces |
| Strings.SplitConcat | src/lib/parser.ts:52 | the pieces of `x` and `y` joined by a separator are the pieces of `x` followed by the pieces of `y`, so the split keeps the order of the string |
| Strings.NatToString | src/app/components/Feed.tsx:72 | the rendering of an hour count is a non-empty string of decimal digits with no leading zero |
| Strings.DecimalRoundTrip | src/app/components/Feed.tsx:72 | reading the rendered digits back gives the count, so the rendering is injective |
| Kv.Hash | src/lib/kv.ts:48-54 | the digest of a url determines the url |
| Kv.HashInjective | src/lib/kv.ts:48-54 | distinct urls never share a digest |
| Kv.AddArticle | src/lib/kv.ts:19-38 | reports true exactly when the url's digest is not recorded yet; a duplicate leaves the store unchanged; a new article is pushed on the head and its digest recorded; the store invariant is kept, and on a valid store "added" means no stored article has that url |
| Kv.AddTwice | src/lib/kv.ts:19-38 | adding the same new article twice reports true and then false, and the second call changes nothing |
| Kv.SameUrlRejected | src/lib/kv.ts:20-26 | dedup is by url alone: a stored url rejects an article with any other title, date, keywords or source |
| Kv.ValidCount | src/lib/kv.ts:34-35 | in a valid store the digest set has one element per stored article |
| Kv.DistinctCount | src/lib/kv.ts:34-35 | a list with pairwise different url digests has as many digests as entries |
| Kv.RangeFromHead | src/lib/kv.ts:44 | `LRANGE key 0 stop` returns a prefix of the list: `stop + 1` elements up to the length, or, for negative `stop`, all but the last `-stop - 1` |
| Kv.GetArticles | src/lib/kv.ts:43-46 | `getArticles(limit)` returns a prefix of the list: `min(limit, length)` articles for a positive limit, the whole list for 0, and all but the last `-limit` for a negative limit |
| Sorting.Insert | src/app/api/update/route.ts:92 | one insertion step of the sort keeps the multiset of articles and keeps the list sorted |
| Sorting.Sort | src/app/api/update/route.ts:92 | the comparator sort returns a permutation of its input that is sorted by `published_at` in the requested direction |
| Sorting.InsertWithInstant | src/app/api/update/route.ts:92 | an insertion step changes only the articles at the inserted article's own instant, and puts the inserted one first among them |
| Sorting.SortIsStable | src/app/api/feed/route.ts:16-18 | the sort is stable: articles with equal `published_at` keep their input order |
| Sorting.SortSorted | src/app/api/feed/route.ts:16-18 | sorting a list that is already in order leaves it unchanged |
| Parser.NewsBlockOf | src/lib/parser.ts:47-48 | the news block is the first `news:news` block, else the first `n:news` block, and an entry with neither has none |
| Parser.TrimAll | src/lib/parser.ts:52 | the keyword pieces are trimmed one by one, in order |
| Parser.NonEmpty | src/lib/parser.ts:52 | the filter keeps exactly the non-empty pieces: the kept pieces are the input with every empty string removed, counted with multiplicity; nothing empty survives and nothing non-empty is lost |
| Parser.NonEmptyConcat | src/lib/parser.ts:52 | the filter works piece by piece, so the kept pieces stay in input order |
| Parser.TrimAllConcat | src/lib/parser.ts:52 | trimming works piece by piece, in order |
| Parser.SplitKeywords | src/lib/parser.ts:50-53 | every keyword is non-empty, trimmed and comma-free; an empty keyword string gives none; every non-blank comma-separated piece appears trimmed, and every keyword is the trimmed form of one of the pieces |
| Parser.SplitKeywordsPieces | src/lib/parser.ts:51-53 | the shortcut for an empty keyword string agrees with the general path: the keywords are always the comma pieces, trimmed, with the empty ones dropped |
| Parser.SplitKeywordsPiece | src/lib/parser.ts:51-53 | a comma-free string gives its trimmed form as the only keyword, or none when it is blank |
| Parser.SplitKeywordsConcat | src/lib/parser.ts:51-53 | the keywords of `x,y` are the keywords of `x` followed by those of `y`, so the keywords keep the order of the string |
| Parser.SplitKeywordsJoin | src/lib/parser.ts:50-53 | a list of valid keywords joined with commas splits back into the same list |
| Parser.TrimmedPiecesValid | src/lib/parser.ts:52 | the non-empty trimmed pieces of a comma split are valid keywords |
| Parser.TrimAllTrimmed | src/lib/parser.ts:52 | trimming already-trimmed pieces changes nothing |
| Parser.NonEmptyKeeps | src/lib/parser.ts:52 | the filter keeps a list without empty strings unchanged |
| Parser.KeywordExample | src/lib/parser.ts:50-53 | `"AI, Tech ,  "` gives exactly `["AI", "Tech"]` |
| Parser.MapEntry | src/lib/parser.ts:44-64 | the map and filter for one entry: it throws exactly when there is a news block but no `loc`; an entry without a news block is dropped; an entry with a news block and a `loc` is kept exactly when `loc[0]` is non-empty, some title is present and some publication date is present; a kept item's url is `loc[0]`, its title and date come from the `news:` element when present and the `n:` element otherwise, and its keywords are the split of the first present keywords text, or none |
| Parser.EntryExample | src/lib/parser.ts:44-64 | an entry whose block has only `n:`-prefixed elements, a title, a publication date and the keywords `AI, Tech ,  `, maps to the item with that url, title and date and the keywords `AI` and `Tech` |
| Parser.SitemapOfOne | src/lib/parser.ts:30-64 | a sitemap of one entry parses to that entry's item when the entry maps to one |
| Parser.SitemapExample | src/lib/parser.ts:30-64 | a whole sitemap document of one such entry parses to the one item, with the `n:` fallbacks read and the keywords split, trimmed and emptied pieces dropped |
| Parser.Settle | src/lib/parser.ts:44-61 | `.map` with a callback that may throw: it fails exactly when one entry throws, with the error of the first entry that does; otherwise it gives one value per entry, in order |
| Parser.Somes | src/lib/parser.ts:62-64 | the `null` filter: no more values than entries, every present value kept, and nothing that was not present |
| Parser.SettleConcat | src/lib/parser.ts:44-61 | the map over a concatenation fails exactly when the map over one part does; otherwise its values are those of the parts, in order |
| Parser.SomesConcat | src/lib/parser.ts:62-64 | the filter over a concatenation is the concatenation of the filtered parts, so the kept values stay in order |
| Parser.ParseEntries | src/lib/parser.ts:44-64 | the whole list fails exactly when one entry throws; otherwise every item is well formed and came from some entry, and every entry's kept item is in the result |
| Parser.MappedFailure | src/lib/parser.ts:44-61 | mapping the entries fails exactly when one entry throws |
| Parser.MappedItems | src/lib/parser.ts:44-64 | after a successful map, the kept items are well formed, every entry's kept item is among them, and each came from some entry |
| Parser.SettledSomes | src/lib/parser.ts:44-64 | after a successful map, the values the `null` filter keeps are exactly the values of the entries that mapped to an item |
| Parser.ParseEntriesConcat | src/lib/parser.ts:44-64 | the items of a concatenation of entries are the items of each part, in order, and it fails exactly when one part fails |
| Parser.ParseSitemap | src/lib/parser.ts:36-42 | a document the XML parser rejects throws; a missing or empty `urlset` gives no items; otherwise the entries are parsed |
| GoogleNews.FeedUrl | src/lib/google-news.ts:14-17 | the technology section url exactly for `TECHNOLOGY`, the top-stories url for every other topic |
| GoogleNews.TopicKeywords | src/lib/google-news.ts:53 | two keywords: `Technology` exactly for the `TECHNOLOGY` topic, `General` otherwise, then `Google News` |
| GoogleNews.Items | src/lib/google-news.ts:28-40 | no items for a failed response, an unparsable body, a missing `rss` node or no channel; otherwise exactly the items of `channel[0]` |
| GoogleNews.ItemToArticle | src/lib/google-news.ts:42-56 | one item to one article: the title is `Untitled` exactly when absent, empty or already `Untitled`, and a present title is the first `title` element; the url is the first link or empty; the date is the first `pubDate` or `now`; the source is `Google News` exactly when the source text is absent, empty or already that, and a present source text is the source |
| GoogleNews.SourceText | src/lib/google-news.ts:46 | `item.source?.[0]?._` as a truth value: present exactly when the first source element has a non-empty text, and then it is that text |
| GoogleNews.FetchGoogleNews | src/lib/google-news.ts:12-62 | exactly one article per item, in item order, each carrying the topic keywords; nothing for a failed response |
| RedditRss.FeedUrl | src/lib/reddit-rss.ts:15 | the url is the fixed prefix, the subreddit, and the fixed suffix |
| RedditRss.FeedUrlInjective | src/lib/reddit-rss.ts:15 | different subreddits are fetched from different urls |
| RedditRss.Entries | src/lib/reddit-rss.ts:26-38 | no entries for a failed response or an unparsable body; otherwise exactly the document's `feed` entries, none when there is no `feed` |
| RedditRss.EntryToArticle | src/lib/reddit-rss.ts:40-57 | mapping an entry throws exactly when its first `link` has no attributes; otherwise the title is never empty, falling back to `Untitled`, and a present title is the first `title` element; the url is the first link's `href` or empty; the date is the first `updated` or `now`; `first_seen_at` is `now`; the keyword and the source name the requested subreddit |
| RedditRss.MapEntries | src/lib/reddit-rss.ts:40-57 | the map fails exactly when one entry throws; otherwise it gives one article per entry, in order |
| RedditRss.FetchRedditRss | src/lib/reddit-rss.ts:13-63 | either no articles or one per entry in order, and all of them when no entry throws; every article is labelled with the requested subreddit |
| Reddit.FeedUrl | src/lib/reddit.ts:23 | the url is the fixed prefix, the subreddit, and `/new.json?limit=25` |
| Reddit.PostKeywords | src/lib/reddit.ts:42-44 | the flair comes first exactly when it is a non-empty string, and `r/<subreddit>` of the post always comes last |
| Reddit.PostToArticle | src/lib/reddit.ts:41-53 | a post throws exactly when its `data` is missing or `created_utc * 1000` is outside the range of a date; otherwise url, title, instant, source and keywords come from the post |
| Reddit.MapChildren | src/lib/reddit.ts:40-54 | the map fails exactly when one child throws; otherwise it gives one article per child, in order |
| Reddit.Children | src/lib/reddit.ts:33-40 | no children for a failed or unparsable response; otherwise exactly the `data.children` of the document, none when `data` or `data.children` is missing |
| Reddit.FetchRedditPosts | src/lib/reddit.ts:21-59 | no articles for a failed response or a missing node; otherwise one article per child in order, or none when a child throws |
| UpdateRoute.SitemapSettled | src/app/api/update/route.ts:24-30 | the sitemap promise is fulfilled exactly when the response is OK, and then with its body |
| UpdateRoute.Tag | src/app/api/update/route.ts:50-54 | a sitemap item becomes a candidate with its url, title, date and keywords, the source `particle.news` and the first-seen stamp `now` |
| UpdateRoute.ParticleArticles | src/app/api/update/route.ts:47-63 | nothing when the fetch was rejected or the parse threw; otherwise every parsed item, in order, tagged `particle.news` and stamped with `now` |
| UpdateRoute.ProcessResult | src/app/api/update/route.ts:66-72 | a fulfilled result contributes its articles and counts them; a rejected one contributes nothing and counts 0 |
| UpdateRoute.Gather | src/app/api/update/route.ts:66-84 | an article is among the gathered candidates exactly when some fulfilled result carries it |
| UpdateRoute.Tally | src/app/api/update/route.ts:66-84 | no fulfilled result has more articles than the total count, and the total is 0 exactly when every result is rejected or empty |
| UpdateRoute.GatherTally | src/app/api/update/route.ts:74-84 | the per-source counts add up to the number of candidates gathered |
| UpdateRoute.GatherAppend | src/app/api/update/route.ts:66-72 | the candidates and counts of two groups of results are those of each group, concatenated and summed |
| UpdateRoute.GatherSplit | src/app/api/update/route.ts:74-84 | around any one result, its articles sit between those of the results before and after it, and its count adds to theirs |
| UpdateRoute.RejectedSourceIsolated | src/app/api/update/route.ts:66-72 | turning one source into a rejection removes exactly its own articles and its own count |
| UpdateRoute.TallyReplace | src/app/api/update/route.ts:74-84 | replacing one result changes the total count by exactly the difference of that result's counts |
| UpdateRoute.Normalize | src/app/api/update/route.ts:95-102 | the stored record keeps url, title, date, keywords and first-seen stamp; a missing source becomes `unknown`, and a present one is kept |
| UpdateRoute.NormalizeAll | src/app/api/update/route.ts:94-102 | each candidate is normalized in place, in order |
| UpdateRoute.NormalizeKeepsOrder | src/app/api/update/route.ts:92-102 | normalizing keeps the oldest-first order |
| UpdateRoute.Prepared | src/app/api/update/route.ts:91-102 | the candidates as inserted: as many as there are, oldest first, every candidate present with its source defaulted, and nothing that is not such a candidate |
| UpdateRoute.PreparedHashes | src/app/api/update/route.ts:91-102 | sorting and defaulting the source keep every url, so the prepared list has the candidates' digests |
| UpdateRoute.InsertAll | src/app/api/update/route.ts:94-108 | the insertion loop adds at most one article per candidate; the newly stored articles sit in front of the old list, which is kept unchanged behind them, and each comes from the candidates |
| UpdateRoute.InsertAllRecords | src/app/api/update/route.ts:104 | after the loop the digest set is the old one plus every candidate's digest |
| UpdateRoute.InsertAllValid | src/app/api/update/route.ts:94-108 | the loop keeps the store invariant: the digest set mirrors the list, and no url is stored twice |
| UpdateRoute.InsertAllNewestFirst | src/app/api/update/route.ts:91-108 | inserting candidates sorted oldest first leaves the new head of the list newest first |
| UpdateRoute.AddedCountsNewUrls | src/app/api/update/route.ts:104-107 | `added` is the number of distinct candidate urls the store did not hold before |
| UpdateRoute.CandidatesStored | src/app/api/update/route.ts:94-108 | after the run every candidate's url is in the store |
| UpdateRoute.StoredCandidates | src/app/api/update/route.ts:91-108 | inserting the prepared candidates into a valid store counts, as `added`, the distinct candidate urls the store lacked, and leaves every candidate's url stored |
| UpdateRoute.Candidates | src/app/api/update/route.ts:43-84 | the candidate list is as long as the three group counts added up; the sitemap articles come first, then the Google articles in the order of `Gather(google)`, and the Reddit articles last; an article is a candidate exactly when the sitemap or a fulfilled Google or Reddit result carries it |
| UpdateRoute.UnionWithUnseen | src/app/api/update/route.ts:104-107 | adding a set of digests grows the set by exactly the number not already in it |
| UpdateRoute.Run | src/app/api/update/route.ts:43-123 | status 500 exactly when the store is unreachable and there is something to insert; the total is the sum of the three group counts and bounds `added`; the store grows by `added` at its head, newest first, keeps its old list behind, and stays valid; each newly stored article is a candidate with its source defaulted; from a valid store, `added` is the number of distinct candidate urls the store lacked and every candidate's url ends up stored |
| UpdateRoute.Requests | src/app/api/update/route.ts:19-41 | eleven requests in array order: the sitemap, the four topic feeds, then the six subreddit feeds |
| UpdateRoute.TopicsShareTopStories | src/app/api/update/route.ts:31-34 | only the `TECHNOLOGY` request has its own feed; the general, science and AI requests all fetch top stories |
| UpdateRoute.GoogleResults | src/app/api/update/route.ts:31-34 | every Google promise is fulfilled, because the adapter catches everything |
| UpdateRoute.RedditResults | src/app/api/update/route.ts:35-40 | every Reddit promise is fulfilled, because the adapter catches everything |
| UpdateRoute.Update | src/app/api/update/route.ts:10-124 | with a reachable store the handler always answers `ok`, whatever the sources return |
| UpdateRoute.BrokenFeedIsolated | src/app/api/update/route.ts:74-77 | one broken Google feed lowers only the Google count, by exactly what that feed would have given; the run still completes |
| FeedRoute.Get | src/app/api/feed/route.ts:6-25 | status 500 exactly when the store is unreachable; otherwise at most 50 articles, `min(50, length)` of them, newest first, and exactly the default-limit read of the store rearranged |
| FeedRoute.FeedAfterFirstRun | src/app/api/feed/route.ts:9-18 | after one run into an empty store the list is already newest first, so the feed's sort returns the read unchanged |
| FeedRoute.FeedOfNewestFirst | src/app/api/feed/route.ts:9-18 | a completed run whose new articles make up the whole store, newest first, is served by the feed in the store's own order |
| FeedRoute.NewestFirstScenario | src/app/api/update/route.ts:91-108 | three articles arriving three, one and two hours old are inserted oldest first and read back one, two, three hours old |
| FeedRoute.NewestFirstRun | src/app/api/update/route.ts:89-119 | the same three articles as a run's only source: three processed, three added, all counted under Reddit, stored newest first |
| FeedRoute.SingleSourceRun | src/app/api/update/route.ts:66-119 | a run whose only contribution is one fulfilled source inserts exactly that source's articles and reports them all |
| Timeline.DiffHours | src/app/components/Feed.tsx:69 | the whole hours from the article's instant to `now`, truncated toward zero: under one exactly when less than an hour, at least 24 exactly from a day on, and bracketing the difference otherwise |
| Timeline.BucketTitle | src/app/components/Feed.tsx:68-73 | `Latest` exactly under one hour old (including the future); the calendar label exactly from 24 hours on; `N Hour(s) Ago` in between, with `1 Hour Ago` in the second hour; never empty |
| Timeline.HoursAgo | src/app/components/Feed.tsx:72 | the title is the digits of the count, a space, and a tail ending in ` Ago`; its length marks the singular exactly for one hour, and one hour gives `1 Hour Ago`; it contains no comma and is not `Latest`, so the three kinds of title never collide |
| Timeline.HoursAgoPlural | src/app/components/Feed.tsx:72 | any count other than one gives its digits followed by ` Hours Ago` |
| Timeline.HoursAgoInjective | src/app/components/Feed.tsx:72 | different hour counts give different titles |
| Timeline.HoursAgoOne | src/app/components/Feed.tsx:72 | one hour renders as `1 Hour Ago` |
| Timeline.HoursAgoExamples | src/app/components/Feed.tsx:72 | 5 and 23 hours render as `5 Hours Ago` and `23 Hours Ago` |
| Timeline.CloseGroup | src/app/components/Feed.tsx:76-77 | closing a non-empty uniform group whose title differs from the last one keeps the groups well formed |
| Timeline.Advance | src/app/components/Feed.tsx:75-83 | one iteration keeps the closed groups as they are and ends the open group with the article, under the article's title |
| Timeline.AdvanceGroupsArticle | src/app/components/Feed.tsx:75-87 | an iteration loses nothing: for a non-empty title, closing up afterwards groups exactly one more article, this one, at the end |
| Timeline.Close | src/app/components/Feed.tsx:85-87 | the final push keeps the closed groups and adds the open group, with its title and articles, exactly when a title is open |
| Timeline.AdvanceKeeps | src/app/components/Feed.tsx:75-83 | one iteration keeps the loop state consistent: the closed and open groups concatenate to the articles seen so far |
| Timeline.CloseKeeps | src/app/components/Feed.tsx:85-87 | the final push turns a consistent end state into a grouping of all articles, empty exactly when there were none |
| Timeline.CloseFlatten | src/app/components/Feed.tsx:85-87 | the closed-up groups hold the articles of the closed groups followed by those of the open group, if a title is open |
| Timeline.SmartGroups | src/app/components/Feed.tsx:63-89 | the groups concatenate back to the articles in order; none is empty; all articles of a group share its title; neighbouring groups have different titles; no groups exactly for no articles |
| Timeline.GroupByAge | src/app/components/Feed.tsx:67-89 | the same for the age bucket titles the page computes |
| Timeline.NoGroupsForNothing | src/app/components/Feed.tsx:85-87 | the only grouping of no articles is no groups |
| Timeline.AfterFirstGroup | src/app/components/Feed.tsx:75-80 | the article right after the first group has a different title |
| Timeline.FirstGroupTitles | src/app/components/Feed.tsx:81-83 | the first group is a prefix of the articles, all with its title |
| Timeline.FirstGroupMaximal | src/app/components/Feed.tsx:75-83 | no grouping's first group is shorter than another grouping's first group |
| Timeline.GroupingUnique | src/app/components/Feed.tsx:63-89 | any two groupings of the same articles are equal, so the properties above determine the loop's result completely |

## Left out

- Network I/O, request headers, `next: { revalidate }` caching and logging are left out. Every response is an input of the model.
- XML and JSON text parsing by xml2js and `response.json()` is left out. The model starts from the parsed tree. A text the parser rejects is a `None` body.
- SHA-1 and its hex encoding are abstracted as an injective digest, so a SHA-1 collision between two urls is not modelled.
- Date parsing and `toISOString` are left out. A date text is paired with the instant it denotes, and instants are integer milliseconds. Only the Reddit JSON adapter's throw for a `created_utc` outside the date range is modelled.
- GoogleNews.ItemToArticle: a date text that does not parse makes `toISOString` throw, which empties the whole feed. The model assumes every date text parses.
- RedditRss.EntryToArticle: the same assumption about date texts as for Google News.
- Sorting.Sort: a comparator returning `NaN` for an unparsable date is left out. Every instant is a number.
- Redis concurrency is left out, including runs that interleave and the non-atomic gap between the set lookup and the two writes of `addArticle`.
- The source reads the clock once per use: src/app/api/update/route.ts:53, src/lib/google-news.ts:45 and 54, src/lib/reddit-rss.ts:43 and 55, src/lib/reddit.ts:52. The model uses one `now` per run. So a date-less item's `published_at` equals its `first_seen_at`, and date-less items from different adapters tie in the sort and keep their concatenation order.
- A store that fails partway through a run is left out. Reachability is decided once per run.
- UpdateRoute.Run: `first_seen_at` is always present on a candidate. Its default of the current instant never applies, so it is not modelled.
- UpdateRoute.Run: a sitemap item keeps its date text as `published_at`, while the adapters store an ISO rendering. The model keeps only the instant.
- Timeline.BucketTitle: the calendar label comes from a date-formatting function passed in. The model relies only on it containing a comma, as every `MMMM d, yyyy` label does.
- Timeline.SmartGroups: this is stated for titles that are never empty. The loop uses the empty title to mean "no group open yet". `BucketTitle` never returns the empty string, so `GroupByAge` meets the condition.
- The rendering in src/app/components/Feed.tsx is left out. That covers the unused age-bucket grouping (`groups`, `orderedGroups` and `dateKeys`, Feed.tsx:18-57) computed inside the `groupedArticles` memo before `smartGroups`, the refresh button, the page component and the debug scripts. None of them changes what is stored or returned.
- Reddit.PostToArticle: a fractional `created_utc` is not modelled. The seconds are an integer.

=== FILE: common.dfy ===
/** Outcome datatypes shared by the adapters, the store and the routes, and the
    two xml2js idioms every adapter uses: `xs?.[0]` and `xs?.[0] || fallback`.

    xml2js turns every child element into an array under the element's name, so a
    parsed tree is modelled with `seq` fields; an element that is absent is the
    empty sequence (xml2js never produces an empty array of its own).
 */
module Common {

  /** An xml2js node or JSON property that is there (`Some`) or `undefined` (`None`). */
  datatype Option<+T> = None | Some(value: T)

  /** `o || fallback` where `o` is never a falsy present value: the value if there,
      else the fallback. */
  function Or<T>(o: Option<T>, fallback: T): (r: T)
    ensures o.Some? ==> r == o.value
    ensures o.None? ==> r == fallback
  {
    if o.Some? then o.value else fallback
  }

  /** The title an adapter gives an item or entry that has none. */
  const DefaultTitle := "Untitled"

  /** A computation that either returns a value or throws (the source's exceptions). */
  datatype Result<+T> = Success(value: T) | Failure(error: string)

  /** One entry of the array that `Promise.allSettled` resolves to. */
  datatype Settled<+T> = Fulfilled(value: T) | Rejected(reason: string)

  /** The outcome of one `fetch`: the request itself failed (network error), or a
      response arrived with an HTTP status and a body that the XML or JSON parser
      either turned into a tree (`Some`) or rejected (`None`). */
  datatype Fetch<+T> = NetworkError | Response(status: int, body: Option<T>) {

    /** `response.ok`: a response whose status lies in 200..299. */
    predicate Ok() {
      Response? && 200 <= status <= 299
    }
  }

  /** The text of a date element together with the instant, in milliseconds since
      the epoch, that the date library reads from it. */
  datatype DateText = DateText(text: string, millis: int)

  /** `xs?.[0]`: the first element of an xml2js child array, if any. */
  function First<T>(xs: seq<T>): (r: Option<T>)
    ensures r.Some? <==> |xs| > 0
    ensures r.Some? ==> r.value == xs[0]
  {
    if |xs| > 0 then Some(xs[0]) else None
  }

  /** `xs?.[0]` used as a truth value on a string: absent and empty are both falsy. */
  function FirstText(xs: seq<string>): (r: Option<string>)
    ensures r.Some? <==> |xs| > 0 && xs[0] != ""
    ensures r.Some? ==> r.value == xs[0] && r.value != ""
  {
    if |xs| > 0 && xs[0] != "" then Some(xs[0]) else None
  }

  /** `xs?.[0]` used as a truth value on a date element: its text decides. */
  function FirstDate(xs: seq<DateText>): (r: Option<DateText>)
    ensures r.Some? <==> |xs| > 0 && xs[0].text != ""
    ensures r.Some? ==> r.value == xs[0] && r.value.text != ""
  {
    if |xs| > 0 && xs[0].text != "" then Some(xs[0]) else None
  }

  /** `a || b` on two optional values: the first that is present, if any. */
  function OrElse<T>(a: Option<T>, b: Option<T>): (r: Option<T>)
    ensures r.Some? <==> a.Some? || b.Some?
    ensures a.Some? ==> r == a
    ensures a.None? ==> r == b
  {
    if a.Some? then a else b
  }
}

=== FILE: feed_route.dfy ===
/** The `GET` handler of src/app/api/feed/route.ts: the default-limit read of the
    store, sorted newest first. */
module FeedRoute {
  import opened Common
  import opened Kv
  import opened Sorting
  import Parser
  import UpdateRoute

  /** The JSON body: the articles, or status 500 when the store is unreachable. */
  datatype FeedResponse = Articles(items: seq<Article>) | ServerError(status: int, error: string)

  /** `getArticles()` with the default limit, then a stable sort by `published_at`
      descending; nothing is added or dropped by the sort. */
  function Get(kv: Option<Store>): (r: FeedResponse)
    ensures r.ServerError? <==> kv.None?
    ensures r.ServerError? ==> r.status == 500
    ensures r.Articles? ==> |r.items| <= DefaultLimit
    ensures r.Articles? ==> |r.items| == Min(DefaultLimit, |kv.value.articles|)
    ensures r.Articles? ==> SortedBy(Descending, r.items)
    ensures r.Articles? ==> multiset(r.items) == multiset(GetArticles(kv.value, DefaultLimit))
  {
    match kv
    case None => ServerError(500, "Internal Server Error")
    case Some(s) => Articles(Sort(Descending, GetArticles(s, DefaultLimit)))
  }

  /** The ordering coupling between the two routes: after one update run into an
      empty store, the store's own order is already newest first, so the feed's
      sort returns the head of the list unchanged. */
  lemma FeedAfterFirstRun(sitemap: Settled<Option<Parser.SitemapDoc>>,
                          google: seq<Settled<seq<Article>>>, reddit: seq<Settled<seq<Article>>>, now: int)
    ensures
      var run := UpdateRoute.Run(sitemap, google, reddit, Some(EmptyStore), now);
      && run.kv.Some?
      && Get(run.kv) == Articles(GetArticles(run.kv.value, DefaultLimit))
  {
    FeedOfNewestFirst(UpdateRoute.Run(sitemap, google, reddit, Some(EmptyStore), now));
  }

  /** A completed run whose newly added articles make up the whole store leaves it
      newest first, so the feed serves it in its own order. */
  lemma FeedOfNewestFirst(run: UpdateRoute.Outcome)
    requires run.response.Completed? && run.kv.Some?
    requires |run.kv.value.articles| == run.response.summary.added
    requires SortedBy(Descending, run.kv.value.articles[..run.response.summary.added])
    ensures Get(run.kv) == Articles(GetArticles(run.kv.value, DefaultLimit))
  {
    var s := run.kv.value;
    assert s.articles[..run.response.summary.added] == s.articles;
    var head := GetArticles(s, DefaultLimit);
    assert SortedBy(Descending, head);
    SortSorted(Descending, head);
  }

  /** Three articles arriving out of order, three, one and two hours old, handled
      as one update run into an empty store: sorted oldest first and each prepended,
      they leave the store, and the feed, reading one, two, three hours old. */
  lemma NewestFirstScenario(a: Article, b: Article, c: Article, now: int)
    requires a.publishedAt == now - 3 * 3_600_000 && b.publishedAt == now - 3_600_000
    requires c.publishedAt == now - 2 * 3_600_000
    requires a.url != b.url && b.url != c.url && a.url != c.url
    requires a.source != "" && b.source != "" && c.source != ""
    ensures
      var ins := UpdateRoute.InsertAll(EmptyStore, UpdateRoute.Prepared([a, b, c]));
      && ins.added == 3
      && ins.store.articles == [b, c, a]
      && Get(Some(ins.store)) == Articles([b, c, a])
  {
    ScenarioSorted(a, b, c);
    NormalizeThree(a, c, b);
    ScenarioInserted(a, c, b);
    NewestFirstThree(b, c, a);
    FeedOfSortedStore(UpdateRoute.InsertAll(EmptyStore, [a, c, b]).store);
  }

  /** Three candidates that all carry a source are stored as they are. */
  lemma NormalizeThree(x: Article, y: Article, z: Article)
    requires x.source != "" && y.source != "" && z.source != ""
    ensures UpdateRoute.NormalizeAll([x, y, z]) == [x, y, z]
  {
    var xs := [x, y, z];
    assert UpdateRoute.NormalizeAll(xs)[0] == x;
    assert UpdateRoute.NormalizeAll(xs)[1] == y;
    assert UpdateRoute.NormalizeAll(xs)[2] == z;
  }

  /** A store holding at most the default limit, newest first, is served as it is. */
  lemma FeedOfSortedStore(s: Store)
    requires |s.articles| <= DefaultLimit && SortedBy(Descending, s.articles)
    ensures Get(Some(s)) == Articles(s.articles)
  {
    assert GetArticles(s, DefaultLimit) == s.articles;
    SortSorted(Descending, s.articles);
  }

  lemma NewestFirstThree(x: Article, y: Article, z: Article)
    requires x.publishedAt >= y.publishedAt >= z.publishedAt
    ensures SortedBy(Descending, [x, y, z])
  {
    var xs := [x, y, z];
    forall i, j | 0 <= i < j < 3
      ensures InOrder(Descending, xs[i].publishedAt, xs[j].publishedAt)
    {
    }
  }

  /** The same three articles as the only contribution of a run: it completes,
      counts three processed and three added, all from Reddit, and leaves the
      store newest first. */
  lemma NewestFirstRun(a: Article, b: Article, c: Article, now: int)
    requires a.publishedAt == now - 3 * 3_600_000 && b.publishedAt == now - 3_600_000
    requires c.publishedAt == now - 2 * 3_600_000
    requires a.url != b.url && b.url != c.url && a.url != c.url
    requires a.source != "" && b.source != "" && c.source != ""
    ensures
      var run := UpdateRoute.Run(Rejected("fetch failed"), [], [Fulfilled([a, b, c])], Some(EmptyStore), now);
      && run.response == UpdateRoute.Completed(UpdateRoute.Summary(3, 3, UpdateRoute.Breakdown(0, 0, 3)))
      && run.kv.Some? && run.kv.value.articles == [b, c, a]
  {
    NewestFirstScenario(a, b, c, now);
    SingleSourceRun([a, b, c], EmptyStore, now);
  }

  /** A run whose only contribution is one fulfilled source inserts exactly that
      source's articles, sorted oldest first, and reports them all. */
  lemma SingleSourceRun(xs: seq<Article>, s: Store, now: int)
    ensures
      var ins := UpdateRoute.InsertAll(s, UpdateRoute.Prepared(xs));
      UpdateRoute.Run(Rejected("fetch failed"), [], [Fulfilled(xs)], Some(s), now)
        == UpdateRoute.Outcome(
             UpdateRoute.Completed(UpdateRoute.Summary(ins.added, |xs|, UpdateRoute.Breakdown(0, 0, |xs|))),
             Some(ins.store))
  {
    UpdateRoute.SingleResult(xs);
    assert UpdateRoute.Candidates(Rejected("fetch failed"), [], [Fulfilled(xs)], now) == xs;
    UpdateRoute.RunStored(Rejected("fetch failed"), [], [Fulfilled(xs)], s, now);
  }

  lemma ScenarioSorted(a: Article, b: Article, c: Article)
    requires a.publishedAt < c.publishedAt < b.publishedAt
    ensures Sort(Ascending, [a, b, c]) == [a, c, b]
  {
    SortTwo(b, c);
    SortCons(a, [b, c]);
    assert [a] + [b, c] == [a, b, c];
    InsertFront(a, [c, b]);
  }

  lemma SortTwo(b: Article, c: Article)
    requires c.publishedAt < b.publishedAt
    ensures Sort(Ascending, [b, c]) == [c, b]
  {
    SortOne(c);
    SortCons(b, [c]);
    assert [b] + [c] == [b, c] && [c] + [] == [c];
    InsertPast(b, c, []);
    InsertFront(b, []);
  }

  lemma SortOne(c: Article)
    ensures Sort(Ascending, [c]) == [c]
  {
    SortCons(c, []);
    assert [c] + [] == [c];
    InsertFront(c, []);
  }

  /** An article no later than the head goes in front. */
  lemma InsertFront(x: Article, xs: seq<Article>)
    requires |xs| == 0 || x.publishedAt <= xs[0].publishedAt
    ensures Insert(Ascending, x, xs) == [x] + xs
  {
  }

  /** An article later than the head is inserted into the tail. */
  lemma InsertPast(x: Article, y: Article, rest: seq<Article>)
    requires x.publishedAt > y.publishedAt
    ensures Insert(Ascending, x, [y] + rest) == [y] + Insert(Ascending, x, rest)
  {
    assert ([y] + rest)[0] == y && ([y] + rest)[1..] == rest;
  }

  lemma SortCons(x: Article, xs: seq<Article>)
    ensures Sort(Ascending, [x] + xs) == Insert(Ascending, x, Sort(Ascending, xs))
  {
    assert ([x] + xs)[0] == x && ([x] + xs)[1..] == xs;
  }

  lemma ScenarioInserted(x: Article, y: Article, z: Article)
    requires x.url != y.url && y.url != z.url && x.url != z.url
    ensures UpdateRoute.InsertAll(EmptyStore, [x, y, z]).added == 3
    ensures UpdateRoute.InsertAll(EmptyStore, [x, y, z]).store.articles == [z, y, x]
  {
    var s1 := Store([x], {Hash(x.url)});
    var s2 := Store([y, x], {Hash(x.url), Hash(y.url)});
    var s3 := Store([z, y, x], {Hash(x.url), Hash(y.url), Hash(z.url)});
    AddNew(EmptyStore, x, s1);
    AddNew(s1, y, s2);
    AddNew(s2, z, s3);
    InsertAllCons(EmptyStore, x, [y, z]);
    InsertAllCons(s1, y, [z]);
    InsertAllCons(s2, z, []);
  }

  lemma AddNew(s: Store, a: Article, t: Store)
    requires Hash(a.url) !in s.hashes
    requires t == Store([a] + s.articles, s.hashes + {Hash(a.url)})
    ensures AddArticle(s, a) == Insertion(true, t)
  {
  }

  lemma InsertAllCons(s: Store, x: Article, xs: seq<Article>)
    ensures var first := AddArticle(s, x);
            var rest := UpdateRoute.InsertAll(first.store, xs);
            UpdateRoute.InsertAll(s, [x] + xs)
              == UpdateRoute.Insertions(if first.added then rest.added + 1 else rest.added, rest.store)
  {
    assert ([x] + xs)[0] == x && ([x] + xs)[1..] == xs;
  }
}

=== FILE: google_news.dfy ===
/** `fetchGoogleNews` of src/lib/google-news.ts: the choice of feed url for a topic
    and the mapping from RSS 2.0 items to articles. The response is an input; a
    failed request, a non-OK status, an unparsable body or a missing node all give
    no articles. */
module GoogleNews {
  import opened Common
  import opened Kv

  const TopStoriesUrl := "https://news.google.com/rss?hl=en-US&gl=US&ceid=US:en"
  const TechnologyUrl := "https://news.google.com/rss/headlines/section/topic/TECHNOLOGY?hl=en-US&gl=US&ceid=US:en"

  const Technology := "TECHNOLOGY"
  const DefaultSource := "Google News"

  /** The nested `source` element; only its text (xml2js `_`) is read. */
  datatype SourceElement = SourceElement(text: Option<string>)

  datatype RssItem = RssItem(
    title: seq<string>,
    link: seq<string>,
    pubDate: seq<DateText>,
    source: seq<SourceElement>)

  datatype Channel = Channel(item: seq<RssItem>)

  /** The `rss` element, if any, with its `channel` children. */
  datatype RssDoc = RssDoc(rss: Option<seq<Channel>>)

  /** The request url: the technology section for the topic `TECHNOLOGY`, top
      stories for every other topic string. */
  function FeedUrl(topic: string): (url: string)
    ensures url == TechnologyUrl <==> topic == Technology
    ensures url != TechnologyUrl ==> url == TopStoriesUrl
  {
    if topic == Technology then TechnologyUrl else TopStoriesUrl
  }

  /** The synthesized keywords: a topic label and the provenance tag. */
  function TopicKeywords(topic: string): (kws: seq<string>)
    ensures |kws| == 2 && kws[1] == DefaultSource
    ensures kws[0] == "Technology" <==> topic == Technology
    ensures kws[0] != "Technology" ==> kws[0] == "General"
  {
    [if topic == Technology then "Technology" else "General", DefaultSource]
  }

  /** The items of the first channel, or none when the response failed or the
      `rss`, `channel` or `item` node is missing. */
  function Items(response: Fetch<RssDoc>): (items: seq<RssItem>)
    ensures !response.Ok() ==> items == []
    ensures response.Ok() && response.body.None? ==> items == []
    ensures response.Ok() && response.body.Some? && response.body.value.rss.None? ==> items == []
    ensures response.Ok() && response.body.Some? && response.body.value.rss.Some? ==>
      var channels := response.body.value.rss.value;
      items == if |channels| == 0 then [] else channels[0].item
  {
    if !response.Ok() then []
    else match response.body
      case None => []
      case Some(doc) =>
        match doc.rss
        case None => []
        case Some(channels) =>
          if |channels| == 0 then [] else channels[0].item
  }

  /** One item as an article. A missing or empty title becomes `Untitled`, a missing
      link the empty url, a missing or empty date the current instant, and a
      missing source text `Google News`; no item is dropped. */
  function ItemToArticle(topic: string, item: RssItem, now: int): (a: Article)
    ensures a.title != "" && a.source != ""
    ensures a.title == DefaultTitle <==> FirstText(item.title) in {None, Some(DefaultTitle)}
    ensures FirstText(item.title).Some? ==> a.title == item.title[0]
    ensures |item.link| > 0 ==> a.url == item.link[0]
    ensures |item.link| == 0 ==> a.url == ""
    ensures FirstDate(item.pubDate).Some? ==> a.publishedAt == item.pubDate[0].millis
    ensures FirstDate(item.pubDate).None? ==> a.publishedAt == now
    ensures a.source == DefaultSource <==> SourceText(item) in {None, Some(DefaultSource)}
    ensures SourceText(item).Some? ==> a.source == item.source[0].text.value
    ensures a.keywords == TopicKeywords(topic)
    ensures a.firstSeenAt == now
  {
    var date := FirstDate(item.pubDate);
    Article(
      url := Or(First(item.link), ""),
      title := Or(FirstText(item.title), DefaultTitle),
      publishedAt := if date.Some? then date.value.millis else now,
      keywords := TopicKeywords(topic),
      source := Or(SourceText(item), DefaultSource),
      firstSeenAt := now)
  }

  /** `item.source?.[0]?._` as a truth value: present exactly when the first
      `source` element has a non-empty text. */
  function SourceText(item: RssItem): (r: Option<string>)
    ensures r.Some? <==> |item.source| > 0 && item.source[0].text.Some? && item.source[0].text.value != ""
    ensures r.Some? ==> r == item.source[0].text
  {
    if |item.source| > 0 && item.source[0].text.Some? && item.source[0].text.value != ""
    then item.source[0].text
    else None
  }

  /** `fetchGoogleNews(topic)` given the response to the request for `FeedUrl(topic)`:
      exactly one article per item, in item order. */
  function FetchGoogleNews(topic: string, response: Fetch<RssDoc>, now: int): (r: seq<Article>)
    ensures |r| == |Items(response)|
    ensures forall i :: 0 <= i < |r| ==> r[i] == ItemToArticle(topic, Items(response)[i], now)
    ensures !response.Ok() ==> r == []
    ensures forall i :: 0 <= i < |r| ==> r[i].keywords == TopicKeywords(topic)
  {
    var items := Items(response);
    seq(|items|, i requires 0 <= i < |items| => ItemToArticle(topic, items[i], now))
  }
}

=== FILE: kv.dfy ===
/** The deduplicating article store of src/lib/kv.ts: a Redis list of articles
    (newest insertion at the head) and a Redis set of url digests. */
module Kv {

  /** The normalized article record every source converges to. Instants are
      milliseconds since the epoch. */
  datatype Article = Article(
    url: string,
    title: string,
    publishedAt: int,
    keywords: seq<string>,
    source: string,
    firstSeenAt: int)

  /** The hex SHA-1 digest of a url, kept abstract: one digest per url, and distinct
      urls have distinct digests. */
  datatype Digest = DigestOf(url: string)

  /** `generateHash`: the digest records the url it was taken of, so equal digests
      mean equal urls. */
  function Hash(url: string): (d: Digest)
    ensures d.url == url
  {
    DigestOf(url)
  }

  /** Distinct urls never share a digest. */
  lemma HashInjective(u: string, v: string)
    requires Hash(u) == Hash(v)
    ensures u == v
  {
    assert Hash(u).url == u && Hash(v).url == v;
  }

  /** `getArticles()` reads this many articles when no limit is given. */
  const DefaultLimit: int := 50

  /** The `articles` list and the `article_hashes` set. */
  datatype Store = Store(articles: seq<Article>, hashes: set<Digest>)

  const EmptyStore := Store([], {})

  /** The digests of the urls of `xs`. */
  function HashesOf(xs: seq<Article>): set<Digest> {
    set a | a in xs :: Hash(a.url)
  }

  /** No two entries of `xs` share a url digest. */
  predicate DistinctUrls(xs: seq<Article>) {
    forall i, j :: 0 <= i < j < |xs| ==> Hash(xs[i].url) != Hash(xs[j].url)
  }

  /** The store invariant: the digest set mirrors the list, and the list holds no url twice. */
  predicate Valid(s: Store) {
    s.hashes == HashesOf(s.articles) && DistinctUrls(s.articles)
  }

  /** The result of `addArticle`: whether the article was new, and the store after. */
  datatype Insertion = Insertion(added: bool, store: Store)

  /** `addArticle`: insert-if-new. A url whose digest is already recorded leaves the
      store alone and reports false; otherwise the article is pushed onto the head
      of the list, its digest recorded, and true reported. */
  function AddArticle(s: Store, a: Article): (r: Insertion)
    ensures r.added <==> Hash(a.url) !in s.hashes
    ensures !r.added ==> r.store == s
    ensures r.added ==> r.store.articles == [a] + s.articles
    ensures r.added ==> r.store.hashes == s.hashes + {Hash(a.url)}
    ensures Valid(s) ==> Valid(r.store)
    ensures Valid(s) ==> (r.added <==> forall b :: b in s.articles ==> b.url != a.url)
  {
    var h := Hash(a.url);
    if h in s.hashes then
      Insertion(false, s)
    else
      var s' := Store([a] + s.articles, s.hashes + {h});
      assert HashesOf([a] + s.articles) == {h} + HashesOf(s.articles);
      Insertion(true, s')
  }

  /** Adding the same new article twice in a row reports true, then false, and the
      second call changes nothing. */
  lemma AddTwice(s: Store, a: Article)
    requires Hash(a.url) !in s.hashes
    ensures AddArticle(s, a).added
    ensures !AddArticle(AddArticle(s, a).store, a).added
    ensures AddArticle(AddArticle(s, a).store, a).store == AddArticle(s, a).store
  {
  }

  /** Deduplication looks at the url only: once an article is stored, another with
      the same url and any other title, date, keywords or source is rejected. */
  lemma SameUrlRejected(s: Store, a: Article, b: Article)
    requires Valid(s)
    requires a in s.articles && b.url == a.url
    ensures !AddArticle(s, b).added
    ensures AddArticle(s, b).store == s
  {
  }

  /** In a valid store the digest set has exactly one element per stored article. */
  lemma {:induction false} ValidCount(s: Store)
    requires Valid(s)
    ensures |s.hashes| == |s.articles|
  {
    DistinctCount(s.articles);
  }

  /** The digests of a non-empty list: its head's and those of the rest. */
  lemma HashesOfCons(items: seq<Article>)
    requires |items| > 0
    ensures HashesOf(items) == {Hash(items[0].url)} + HashesOf(items[1..])
  {
    forall h | h in HashesOf(items)
      ensures h in {Hash(items[0].url)} + HashesOf(items[1..])
    {
      var a :| a in items && Hash(a.url) == h;
      if a != items[0] {
        var j :| 0 <= j < |items| && items[j] == a;
        assert items[1..][j - 1] == a;
      }
    }
    forall h | h in HashesOf(items[1..])
      ensures h in HashesOf(items)
    {
      var a :| a in items[1..] && Hash(a.url) == h;
      assert a in items;
    }
  }

  lemma {:induction false} DistinctCount(xs: seq<Article>)
    requires DistinctUrls(xs)
    ensures |HashesOf(xs)| == |xs|
  {
    if |xs| > 0 {
      var h := Hash(xs[0].url);
      HashesOfCons(xs);
      assert h !in HashesOf(xs[1..]) by {
        forall a | a in xs[1..] ensures Hash(a.url) != h {
          var j :| 0 <= j < |xs[1..]| && xs[1..][j] == a;
          assert xs[j + 1] == a;
        }
      }
      DistinctCount(xs[1..]);
    }
  }

  function Min(a: int, b: int): int {
    if a <= b then a else b
  }

  function Max(a: int, b: int): int {
    if a >= b then a else b
  }

  /** Redis `LRANGE key 0 stop`: the head of the list up to index `stop` inclusive,
      where a negative `stop` counts back from the end (-1 is the last element). */
  function RangeFromHead(xs: seq<Article>, stop: int): (r: seq<Article>)
    ensures r <= xs
    ensures stop >= 0 ==> |r| == Min(stop + 1, |xs|)
    ensures stop < 0 ==> |r| == Max(0, |xs| + stop + 1)
  {
    var last := if stop < 0 then |xs| + stop else stop;
    if last < 0 then [] else xs[..Min(last + 1, |xs|)]
  }

  /** `getArticles(limit)`: `LRANGE articles 0 limit-1`. For a positive limit this is
      the first `min(limit, |list|)` articles in list order; a limit of 0 reads the
      whole list and a negative limit drops that many articles from the end. */
  function GetArticles(s: Store, limit: int): (r: seq<Article>)
    ensures r <= s.articles
    ensures limit >= 1 ==> |r| == Min(limit, |s.articles|)
    ensures limit == 0 ==> r == s.articles
    ensures limit < 0 ==> |r| == Max(0, |s.articles| + limit)
  {
    RangeFromHead(s.articles, limit - 1)
  }
}

=== FILE: parser.dfy ===
/** `parseSitemap` of src/lib/parser.ts, from the xml2js tree of a news sitemap to
    the list of news items: the choice of news block, the keyword split and the
    filter on required fields. */
module Parser {
  import opened Common
  import opened Strings

  /** One `news:news` or `n:news` block. The source looks up each field under both
      prefixes whichever block it chose, so both are kept. */
  datatype NewsBlock = NewsBlock(
    newsTitle: seq<string>,
    nTitle: seq<string>,
    newsPublicationDate: seq<DateText>,
    nPublicationDate: seq<DateText>,
    newsKeywords: seq<string>,
    nKeywords: seq<string>)

  /** One `url` entry of the `urlset`. */
  datatype UrlEntry = UrlEntry(loc: seq<string>, newsNews: seq<NewsBlock>, nNews: seq<NewsBlock>)

  /** The parsed document: its `urlset` element, if present, with its `url` entries. */
  datatype SitemapDoc = SitemapDoc(urlset: Option<seq<UrlEntry>>)

  /** A `ParsedNewsItem`. */
  datatype NewsItem = NewsItem(url: string, title: string, publishedAt: DateText, keywords: seq<string>)

  /** The news block an entry is read from: its first `news:news` block, else its
      first `n:news` block. */
  function NewsBlockOf(e: UrlEntry): (b: Option<NewsBlock>)
    ensures b.None? <==> |e.newsNews| == 0 && |e.nNews| == 0
    ensures |e.newsNews| > 0 ==> b == Some(e.newsNews[0])
    ensures |e.newsNews| == 0 && |e.nNews| > 0 ==> b == Some(e.nNews[0])
  {
    OrElse(First(e.newsNews), First(e.nNews))
  }

  /** Every item the parser can emit: non-empty url, title and date text, and
      keywords that are non-empty, trimmed and comma-free. */
  predicate WellFormed(item: NewsItem) {
    && item.url != ""
    && item.title != ""
    && item.publishedAt.text != ""
    && forall k :: 0 <= k < |item.keywords| ==> ValidKeyword(item.keywords[k])
  }

  predicate ValidKeyword(k: string) {
    k != "" && Trimmed(k) && ',' !in k
  }

  /** Each string trimmed, in order. */
  function TrimAll(xs: seq<string>): (r: seq<string>)
    ensures |r| == |xs|
    ensures forall i :: 0 <= i < |r| ==> r[i] == Trim(xs[i])
  {
    if |xs| == 0 then [] else [Trim(xs[0])] + TrimAll(xs[1..])
  }

  /** The non-empty strings of `xs`, in order. */
  function NonEmpty(xs: seq<string>): (r: seq<string>)
    ensures |r| <= |xs|
    ensures forall i :: 0 <= i < |r| ==> r[i] != "" && r[i] in xs
    ensures forall k :: k in xs && k != "" ==> k in r
    ensures multiset(r) == multiset(xs)["" := 0]
  {
    if |xs| == 0 then []
    else
      assert xs == [xs[0]] + xs[1..];
      if xs[0] == "" then NonEmpty(xs[1..]) else [xs[0]] + NonEmpty(xs[1..])
  }

  /** The filter keeps order: filtering a concatenation concatenates the filtered parts. */
  lemma {:induction false} NonEmptyConcat(a: seq<string>, b: seq<string>)
    ensures NonEmpty(a + b) == NonEmpty(a) + NonEmpty(b)
  {
    if |a| == 0 {
      assert a + b == b;
    } else {
      assert (a + b)[0] == a[0] && (a + b)[1..] == a[1..] + b;
      NonEmptyConcat(a[1..], b);
    }
  }

  /** Trimming keeps order: trimming a concatenation concatenates the trimmed parts. */
  lemma {:induction false} TrimAllConcat(a: seq<string>, b: seq<string>)
    ensures TrimAll(a + b) == TrimAll(a) + TrimAll(b)
  {
    if |a| == 0 {
      assert a + b == b;
    } else {
      assert (a + b)[0] == a[0] && (a + b)[1..] == a[1..] + b;
      TrimAllConcat(a[1..], b);
    }
  }

  /** The keywords of a comma-separated keyword string: split on ',', each piece
      trimmed, empty pieces removed; an empty string gives no keywords. */
  function SplitKeywords(s: string): (kws: seq<string>)
    ensures forall k :: 0 <= k < |kws| ==> ValidKeyword(kws[k])
    ensures s == "" ==> kws == []
    ensures forall p :: p in Split(s, ',') && Trim(p) != "" ==> Trim(p) in kws
    ensures forall k :: k in kws ==> exists p :: p in Split(s, ',') && k == Trim(p)
  {
    if s == "" then []
    else
      var pieces := Split(s, ',');
      var trimmed := TrimAll(pieces);
      TrimmedPiecesValid(pieces);
      assert forall k :: k in trimmed ==> exists p :: p in pieces && k == Trim(p) by {
        forall k | k in trimmed ensures exists p :: p in pieces && k == Trim(p) {
          var i :| 0 <= i < |trimmed| && trimmed[i] == k;
          assert pieces[i] in pieces;
        }
      }
      assert forall p :: p in pieces ==> Trim(p) in trimmed by {
        forall p | p in pieces ensures Trim(p) in trimmed {
          var i :| 0 <= i < |pieces| && pieces[i] == p;
          assert trimmed[i] == Trim(p);
        }
      }
      NonEmpty(trimmed)
  }

  /** The keywords are the trimmed non-empty pieces of the split, for every string,
      the empty one included. */
  lemma SplitKeywordsPieces(s: string)
    ensures SplitKeywords(s) == NonEmpty(TrimAll(Split(s, ',')))
  {
    if s == "" {
      assert Split(s, ',') == [""];
      assert TrimAll([""]) == [""] by {
        TrimBlank("");
      }
      assert [""][1..] == [];
    }
  }

  /** A piece without a comma gives its trimmed text as its only keyword, or none
      when it is blank. */
  lemma SplitKeywordsPiece(p: string)
    requires ',' !in p
    ensures SplitKeywords(p) == if Trim(p) == "" then [] else [Trim(p)]
  {
    SplitKeywordsPieces(p);
    SplitNoSeparator(p, ',');
    assert TrimAll([p]) == [Trim(p)];
    assert [Trim(p)][1..] == [];
  }

  /** The keywords of a string keep the order of its pieces: the keywords before a
      comma come first, then those after it. */
  lemma SplitKeywordsConcat(x: string, y: string)
    ensures SplitKeywords(x + [','] + y) == SplitKeywords(x) + SplitKeywords(y)
  {
    SplitKeywordsPieces(x + [','] + y);
    SplitKeywordsPieces(x);
    SplitKeywordsPieces(y);
    SplitConcat(x, y, ',');
    TrimAllConcat(Split(x, ','), Split(y, ','));
    NonEmptyConcat(TrimAll(Split(x, ',')), TrimAll(Split(y, ',')));
  }

  /** Trimming comma-free pieces gives trimmed comma-free strings. */
  lemma TrimmedPiecesValid(pieces: seq<string>)
    requires forall i :: 0 <= i < |pieces| ==> ',' !in pieces[i]
    ensures forall k :: k in TrimAll(pieces) && k != "" ==> ValidKeyword(k)
  {
    forall k | k in TrimAll(pieces) && k != "" ensures ValidKeyword(k) {
      var i :| 0 <= i < |pieces| && TrimAll(pieces)[i] == k;
      TrimCommaFree(pieces[i]);
    }
  }

  lemma TrimCommaFree(p: string)
    requires ',' !in p
    ensures ',' !in Trim(p)
  {
  }

  /** Joining valid keywords with ',' and splitting them again gives them back. */
  lemma {:induction false} SplitKeywordsJoin(kws: seq<string>)
    requires |kws| >= 1
    requires forall k :: 0 <= k < |kws| ==> ValidKeyword(kws[k])
    ensures SplitKeywords(Join(kws, ',')) == kws
  {
    SplitJoin(kws, ',');
    assert Join(kws, ',') != "" by {
      JoinNonEmpty(kws, ',');
    }
    TrimAllTrimmed(kws);
    NonEmptyKeeps(kws);
  }

  lemma {:induction false} JoinNonEmpty(parts: seq<string>, sep: char)
    requires |parts| >= 1 && parts[0] != ""
    ensures Join(parts, sep) != ""
  {
  }

  lemma {:induction false} TrimAllTrimmed(xs: seq<string>)
    requires forall k :: 0 <= k < |xs| ==> Trimmed(xs[k])
    ensures TrimAll(xs) == xs
  {
    forall k | 0 <= k < |xs| ensures TrimAll(xs)[k] == xs[k] {
      TrimTrimmed(xs[k]);
    }
  }

  lemma {:induction false} NonEmptyKeeps(xs: seq<string>)
    requires forall k :: 0 <= k < |xs| ==> xs[k] != ""
    ensures NonEmpty(xs) == xs
  {
    if |xs| > 0 {
      NonEmptyKeeps(xs[1..]);
      assert xs == [xs[0]] + xs[1..];
    }
  }

  /** The `.map` step for one entry, followed by the filter: an entry with no news
      block is dropped; one with a news block but no `loc` throws; otherwise the
      record is kept when its url, title and date are all non-empty. */
  function MapEntry(e: UrlEntry): (r: Result<Option<NewsItem>>)
    ensures r.Failure? <==> NewsBlockOf(e).Some? && |e.loc| == 0
    ensures NewsBlockOf(e).None? ==> r == Success(None)
    ensures r.Success? && r.value.Some? ==> WellFormed(r.value.value) && r.value.value.url == e.loc[0]
    ensures NewsBlockOf(e).Some? && |e.loc| > 0 ==>
      var b := NewsBlockOf(e).value;
      r.value.Some? <==>
        && e.loc[0] != ""
        && (FirstText(b.newsTitle).Some? || FirstText(b.nTitle).Some?)
        && (FirstDate(b.newsPublicationDate).Some? || FirstDate(b.nPublicationDate).Some?)
    ensures r.Success? && r.value.Some? ==>
      var b, item := NewsBlockOf(e).value, r.value.value;
      && item.title == (if FirstText(b.newsTitle).Some? then b.newsTitle[0] else b.nTitle[0])
      && item.publishedAt
         == (if FirstDate(b.newsPublicationDate).Some? then b.newsPublicationDate[0] else b.nPublicationDate[0])
      && item.keywords
         == SplitKeywords(if FirstText(b.newsKeywords).Some? then b.newsKeywords[0]
                          else if FirstText(b.nKeywords).Some? then b.nKeywords[0]
                          else "")
  {
    match NewsBlockOf(e)
    case None => Success(None)
    case Some(b) =>
      if |e.loc| == 0 then Failure("TypeError: entry.loc is undefined")
      else
        var url := e.loc[0];
        var title := OrElse(FirstText(b.newsTitle), FirstText(b.nTitle));
        var date := OrElse(FirstDate(b.newsPublicationDate), FirstDate(b.nPublicationDate));
        var keywords := Or(OrElse(FirstText(b.newsKeywords), FirstText(b.nKeywords)), "");
        if url != "" && title.Some? && date.Some? then
          Success(Some(NewsItem(url, title.value, date.value, SplitKeywords(keywords))))
        else
          Success(None)
  }

  /** The outcomes of `.map` over a list whose callback may throw: the values in
      order, or the error of the first entry that threw. */
  function Settle<T>(rs: seq<Result<T>>): (r: Result<seq<T>>)
    ensures r.Failure? <==> exists i :: 0 <= i < |rs| && rs[i].Failure?
    ensures r.Failure? ==> exists i :: 0 <= i < |rs| && rs[i] == Failure(r.error)
                                      && forall j :: 0 <= j < i ==> rs[j].Success?
    ensures r.Success? ==> |r.value| == |rs| && forall i :: 0 <= i < |rs| ==> rs[i] == Success(r.value[i])
  {
    if |rs| == 0 then Success([])
    else if rs[0].Failure? then Failure(rs[0].error)
    else
      var rest := Settle(rs[1..]);
      assert forall i :: 0 < i < |rs| ==> rs[i] == rs[1..][i - 1];
      if rest.Failure? then Failure(rest.error) else Success([rs[0].value] + rest.value)
  }

  /** The `.filter` that drops the `null` entries, keeping the others in order. */
  function Somes<T>(xs: seq<Option<T>>): (r: seq<T>)
    ensures |r| <= |xs|
    ensures forall i :: 0 <= i < |xs| && xs[i].Some? ==> xs[i].value in r
    ensures forall x :: x in r ==> Some(x) in xs
  {
    if |xs| == 0 then []
    else
      var rest := Somes(xs[1..]);
      assert forall i :: 0 < i < |xs| ==> xs[i] == xs[1..][i - 1];
      if xs[0].Some? then [xs[0].value] + rest else rest
  }

  /** Settling a concatenation settles each part; the values stay in order. */
  lemma SettleConcat<T>(a: seq<Result<T>>, b: seq<Result<T>>)
    ensures Settle(a + b).Failure? <==> Settle(a).Failure? || Settle(b).Failure?
    ensures Settle(a + b).Success? ==> Settle(a + b).value == Settle(a).value + Settle(b).value
  {
    var r, ra, rb := Settle(a + b), Settle(a), Settle(b);
    if ra.Failure? {
      var i :| 0 <= i < |a| && a[i].Failure?;
      assert (a + b)[i] == a[i];
    } else if rb.Failure? {
      var i :| 0 <= i < |b| && b[i].Failure?;
      assert (a + b)[|a| + i] == b[i];
    } else {
      forall k | 0 <= k < |a + b| ensures r.value[k] == (ra.value + rb.value)[k] {
        if k < |a| { assert (a + b)[k] == a[k]; } else { assert (a + b)[k] == b[k - |a|]; }
      }
    }
  }

  /** Filtering a concatenation filters each part; the kept values stay in order. */
  lemma {:induction false} SomesConcat<T>(a: seq<Option<T>>, b: seq<Option<T>>)
    ensures Somes(a + b) == Somes(a) + Somes(b)
  {
    if |a| == 0 {
      assert a + b == b;
    } else {
      HeadTail(a, b);
      SomesConcat(a[1..], b);
      if a[0].Some? { ConsAssoc(a[0].value, Somes(a[1..]), Somes(b)); }
    }
  }

  /** What each entry maps to, in order. */
  function Mapped(es: seq<UrlEntry>): (rs: seq<Result<Option<NewsItem>>>)
    ensures |rs| == |es| && forall i :: 0 <= i < |es| ==> rs[i] == MapEntry(es[i])
  {
    seq(|es|, i requires 0 <= i < |es| => MapEntry(es[i]))
  }

  /** Maps the entries and drops the `null`s, in order; one throwing entry fails the
      whole list. */
  function ParseEntries(es: seq<UrlEntry>): (r: Result<seq<NewsItem>>)
    ensures r.Failure? <==> exists i :: 0 <= i < |es| && MapEntry(es[i]).Failure?
    ensures r.Success? ==> |r.value| <= |es|
    ensures r.Success? ==> forall k :: 0 <= k < |r.value| ==> WellFormed(r.value[k])
    ensures r.Success? ==> forall i :: 0 <= i < |es| && MapEntry(es[i]) != Success(None)
                                   ==> MapEntry(es[i]).value.value in r.value
    ensures r.Success? ==> forall item :: item in r.value
                                   ==> exists i :: 0 <= i < |es| && MapEntry(es[i]) == Success(Some(item))
  {
    var settled := Settle(Mapped(es));
    MappedFailure(es);
    if settled.Failure? then Failure(settled.error)
    else
      MappedItems(es);
      Success(Somes(settled.value))
  }

  /** The mapped entries fail to settle exactly when one entry throws. */
  lemma MappedFailure(es: seq<UrlEntry>)
    ensures Settle(Mapped(es)).Failure? <==> exists i :: 0 <= i < |es| && MapEntry(es[i]).Failure?
  {
    var rs := Mapped(es);
    if Settle(rs).Failure? {
      var i :| 0 <= i < |rs| && rs[i].Failure?;
      assert MapEntry(es[i]).Failure?;
    }
  }

  /** After a successful settle, the kept items are well formed and are exactly the
      items the entries map to. */
  lemma MappedItems(es: seq<UrlEntry>)
    requires Settle(Mapped(es)).Success?
    ensures forall k :: 0 <= k < |Somes(Settle(Mapped(es)).value)| ==> WellFormed(Somes(Settle(Mapped(es)).value)[k])
    ensures forall i :: 0 <= i < |es| && MapEntry(es[i]) != Success(None)
                    ==> MapEntry(es[i]).value.value in Somes(Settle(Mapped(es)).value)
    ensures forall item :: item in Somes(Settle(Mapped(es)).value)
                    ==> exists i :: 0 <= i < |es| && MapEntry(es[i]) == Success(Some(item))
  {
    var rs := Mapped(es);
    var items := Somes(Settle(rs).value);
    SettledSomes(rs);
    forall k | 0 <= k < |items|
      ensures WellFormed(items[k])
    {
      assert items[k] in items;
      var i :| 0 <= i < |rs| && rs[i] == Success(Some(items[k]));
      assert MapEntry(es[i]) == Success(Some(items[k]));
    }
  }

  /** After a successful settle, the kept values are exactly the values of the
      `Success(Some(_))` results. */
  lemma SettledSomes<T>(rs: seq<Result<Option<T>>>)
    requires Settle(rs).Success?
    ensures forall i :: 0 <= i < |rs| && rs[i] != Success(None) ==> rs[i].value.value in Somes(Settle(rs).value)
    ensures forall x :: x in Somes(Settle(rs).value) ==> exists i :: 0 <= i < |rs| && rs[i] == Success(Some(x))
  {
    var vs := Settle(rs).value;
    forall x | x in Somes(vs)
      ensures exists i :: 0 <= i < |rs| && rs[i] == Success(Some(x))
    {
      var i :| 0 <= i < |vs| && vs[i] == Some(x);
      assert rs[i] == Success(Some(x));
    }
  }

  /** The items of a concatenation are the items of each part, in order, and it
      fails exactly when one part does. */
  lemma ParseEntriesConcat(a: seq<UrlEntry>, b: seq<UrlEntry>)
    ensures ParseEntries(a + b).Failure? <==> ParseEntries(a).Failure? || ParseEntries(b).Failure?
    ensures ParseEntries(a + b).Success? ==> ParseEntries(a + b).value == ParseEntries(a).value + ParseEntries(b).value
  {
    assert Mapped(a + b) == Mapped(a) + Mapped(b);
    SettleConcat(Mapped(a), Mapped(b));
    if Settle(Mapped(a + b)).Success? {
      SomesConcat(Settle(Mapped(a)).value, Settle(Mapped(b)).value);
    }
  }

  /** `parseSitemap`: a document the XML parser rejects throws; a missing `urlset` or
      a `urlset` with no `url` entries gives no items. */
  function ParseSitemap(doc: Option<SitemapDoc>): (r: Result<seq<NewsItem>>)
    ensures doc.None? ==> r.Failure?
    ensures doc.Some? && (doc.value.urlset.None? || doc.value.urlset.value == []) ==> r == Success([])
    ensures doc.Some? && doc.value.urlset.Some? ==> r == ParseEntries(doc.value.urlset.value)
  {
    match doc
    case None => Failure("XML parse error")
    case Some(d) =>
      match d.urlset
      case None => Success([])
      case Some(es) => ParseEntries(es)
  }

  /** A sitemap with one entry that uses only the `n:` prefix: the entry is kept,
      with the title, date and split keywords of its block. */
  lemma SitemapExample()
    ensures
      var b := NewsBlock([], ["Title"], [], [DateText("2024-05-01", 7)], [], ["AI, Tech ,  "]);
      var e := UrlEntry(["https://particle.news/a"], [], [b]);
      ParseSitemap(Some(SitemapDoc(Some([e]))))
        == Success([NewsItem("https://particle.news/a", "Title", DateText("2024-05-01", 7), ["AI", "Tech"])])
  {
    var b := NewsBlock([], ["Title"], [], [DateText("2024-05-01", 7)], [], ["AI, Tech ,  "]);
    var e := UrlEntry(["https://particle.news/a"], [], [b]);
    EntryExample(e, b);
    SitemapOfOne(e, NewsItem("https://particle.news/a", "Title", DateText("2024-05-01", 7), ["AI", "Tech"]));
  }

  /** The entry of `SitemapExample` maps to its item. */
  lemma EntryExample(e: UrlEntry, b: NewsBlock)
    requires b == NewsBlock([], ["Title"], [], [DateText("2024-05-01", 7)], [], ["AI, Tech ,  "])
    requires e == UrlEntry(["https://particle.news/a"], [], [b])
    ensures MapEntry(e) == Success(Some(NewsItem("https://particle.news/a", "Title", DateText("2024-05-01", 7), ["AI", "Tech"])))
  {
    KeywordExample();
    assert NewsBlockOf(e) == Some(b);
  }

  /** A sitemap whose only entry is kept parses to that entry's item alone. */
  lemma SitemapOfOne(e: UrlEntry, item: NewsItem)
    requires MapEntry(e) == Success(Some(item))
    ensures ParseSitemap(Some(SitemapDoc(Some([e])))) == Success([item])
  {
    assert Mapped([e]) == [Success(Some(item))];
    SettleOne(Some(item));
    SomesOne(item);
  }

  lemma SettleOne<T>(x: T)
    ensures Settle([Success(x)]) == Success([x])
  {
    var rs := [Success(x)];
    assert rs[1..] == [] && Settle(rs[1..]) == Success([]);
    assert [x] + [] == [x];
  }

  lemma SomesOne<T>(x: T)
    ensures Somes([Some(x)]) == [x]
  {
    assert [Some(x)][1..] == [];
  }

  /** The keyword string `"AI, Tech ,  "` gives `["AI", "Tech"]`. */
  lemma KeywordExample()
    ensures SplitKeywords("AI, Tech ,  ") == ["AI", "Tech"]
  {
    var s := "AI, Tech ,  ";
    assert |s| == 12;
    SplitExample();
    TrimAllExample();
    NonEmptyExample();
    assert SplitKeywords(s) == NonEmpty(TrimAll(Split(s, ',')));
  }

  lemma NonEmptyExample()
    ensures NonEmpty(["AI", "Tech", ""]) == ["AI", "Tech"]
  {
    assert ["AI", "Tech", ""][1..] == ["Tech", ""];
    assert ["Tech", ""][1..] == [""];
  }

  lemma SplitExample()
    ensures Split("AI, Tech ,  ", ',') == ["AI", " Tech ", "  "]
  {
    assert "AI, Tech ,  " == "AI" + [','] + (" Tech " + [','] + "  ");
    SplitAtSeparator("AI", " Tech " + [','] + "  ", ',');
    SplitAtSeparator(" Tech ", "  ", ',');
    SplitNoSeparator("  ", ',');
  }

  lemma TrimAllExample()
    ensures TrimAll(["AI", " Tech ", "  "]) == ["AI", "Tech", ""]
  {
    TrimTrimmed("AI");
    TrimExample();
    TrimBlank("  ");
  }

  lemma TrimExample()
    ensures Trim(" Tech ") == "Tech"
  {
    var s := " Tech ";
    assert LeadingWhitespace(s[1..]) == 0;
    assert LeadingWhitespace(s) == 1;
    var t := s[1..];
    assert t[..|t| - 1] == "Tech";
    assert TrailingWhitespace(t[..|t| - 1]) == 4;
    assert TrailingWhitespace(t) == 4;
  }

  lemma TrimBlank(s: string)
    requires AllWhitespace(s)
    ensures Trim(s) == ""
  {
  }
}

=== FILE: reddit.dfy ===
/** `fetchRedditPosts` of src/lib/reddit.ts: the JSON listing url of a subreddit and
    the mapping from listing children to articles. The response is an input; a
    failed request, a non-OK status, an unparsable body or an exception while
    mapping all give no articles. */
module Reddit {
  import opened Common
  import opened Kv
  import RedditRss

  /** Shared with the feed adapter. */
  const UrlPrefix := RedditRss.UrlPrefix
  const UrlSuffix := "/new.json?limit=25"

  /** The largest magnitude of an ECMAScript time value: `new Date(ms)` beyond it is
      an invalid date, whose `toISOString` throws. */
  const MaxTimeValue: int := 8_640_000_000_000_000

  /** The `data` of one post; `link_flair_text` may be absent or null. */
  datatype PostData = PostData(
    title: string,
    url: string,
    createdUtc: int,
    subreddit: string,
    linkFlairText: Option<string>)

  /** One element of `data.children`. */
  datatype Child = Child(data: Option<PostData>)

  /** The parsed listing: `json.data`, and its `children` when present. */
  datatype Listing = Listing(data: Option<Option<seq<Child>>>)

  /** The request url `https://www.reddit.com/r/<subreddit>/new.json?limit=25`. */
  function FeedUrl(subreddit: string): (url: string)
    ensures |url| == |UrlPrefix| + |subreddit| + |UrlSuffix|
    ensures url[..|UrlPrefix|] == UrlPrefix
    ensures url[|UrlPrefix|..|url| - |UrlSuffix|] == subreddit
    ensures url[|url| - |UrlSuffix|..] == UrlSuffix
  {
    var url := UrlPrefix + subreddit + UrlSuffix;
    assert url[|UrlPrefix|..|url| - |UrlSuffix|] == subreddit;
    url
  }

  /** The keywords of a post: its flair when that is a non-empty string, then
      `r/<subreddit>` of the post's own subreddit. */
  function PostKeywords(p: PostData): (kws: seq<string>)
    ensures |kws| == 2 || |kws| == 1
    ensures kws[|kws| - 1] == RedditRss.SubredditTag(p.subreddit)
    ensures |kws| == 2 <==> p.linkFlairText.Some? && p.linkFlairText.value != ""
    ensures |kws| == 2 ==> kws[0] == p.linkFlairText.value
  {
    var tag := RedditRss.SubredditTag(p.subreddit);
    match p.linkFlairText
    case Some(flair) => if flair != "" then [flair, tag] else [tag]
    case None => [tag]
  }

  /** One post as an article, or an exception: a missing `data` throws when it is
      destructured, and a publish instant `created_utc * 1000` outside the range of
      a date throws in `toISOString`. */
  function PostToArticle(c: Child, now: int): (r: Option<Article>)
    ensures r.None? <==> c.data.None? || !(-MaxTimeValue <= c.data.value.createdUtc * 1000 <= MaxTimeValue)
    ensures r.Some? ==> r.value.url == c.data.value.url && r.value.title == c.data.value.title
    ensures r.Some? ==> r.value.publishedAt == c.data.value.createdUtc * 1000
    ensures r.Some? ==> r.value.source == RedditRss.SourceLabel(c.data.value.subreddit)
    ensures r.Some? ==> r.value.keywords == PostKeywords(c.data.value)
    ensures r.Some? ==> r.value.firstSeenAt == now
  {
    match c.data
    case None => None
    case Some(p) =>
      var millis := p.createdUtc * 1000;
      if -MaxTimeValue <= millis <= MaxTimeValue then
        Some(Article(
          url := p.url,
          title := p.title,
          publishedAt := millis,
          keywords := PostKeywords(p),
          source := RedditRss.SourceLabel(p.subreddit),
          firstSeenAt := now))
      else
        None
  }

  /** Maps every child in order; the first exception abandons the whole list. */
  function MapChildren(cs: seq<Child>, now: int): (r: Option<seq<Article>>)
    ensures r.None? <==> exists i :: 0 <= i < |cs| && PostToArticle(cs[i], now).None?
    ensures r.Some? ==> |r.value| == |cs|
    ensures r.Some? ==> forall i :: 0 <= i < |cs| ==> Some(r.value[i]) == PostToArticle(cs[i], now)
  {
    if |cs| == 0 then Some([])
    else
      var head := PostToArticle(cs[0], now);
      var rest := MapChildren(cs[1..], now);
      assert forall i :: 0 < i < |cs| ==> cs[i] == cs[1..][i - 1];
      if head.None? || rest.None? then None else Some([head.value] + rest.value)
  }

  /** The listing's children, when the response is OK, parses, and has both `data`
      and `data.children`; reading a missing node throws. */
  function Children(response: Fetch<Listing>): (r: Option<seq<Child>>)
    ensures !response.Ok() ==> r.None?
    ensures r.Some? ==> response.body.Some? && response.body.value.data == Some(r)
    ensures response.Ok() && response.body.None? ==> r.None?
    ensures response.Ok() && response.body.Some? ==> r == Or(response.body.value.data, None)
  {
    if !response.Ok() then None
    else match response.body
      case None => None
      case Some(listing) =>
        match listing.data
        case None => None
        case Some(children) => children
  }

  /** `fetchRedditPosts(subreddit)` given the response to the request for
      `FeedUrl(subreddit)`: one article per child, in order, when nothing throws;
      otherwise no articles. The subreddit argument only chooses the url: the
      labels come from each post's own subreddit. */
  function FetchRedditPosts(subreddit: string, response: Fetch<Listing>, now: int): (r: seq<Article>)
    ensures !response.Ok() ==> r == []
    ensures Children(response).None? ==> r == []
    ensures Children(response).Some? && MapChildren(Children(response).value, now).Some?
            ==> |r| == |Children(response).value|
    ensures r != [] ==> Children(response).Some? && |r| == |Children(response).value|
    ensures r != [] ==> forall i :: 0 <= i < |r| ==> Some(r[i]) == PostToArticle(Children(response).value[i], now)
  {
    match Children(response)
    case None => []
    case Some(cs) => Or(MapChildren(cs, now), [])
  }
}

=== FILE: reddit_rss.dfy ===
/** `fetchRedditRSS` of src/lib/reddit-rss.ts: the feed url of a subreddit and the
    mapping from Atom entries to articles. The response is an input; a failed
    request, a non-OK status, an unparsable body, a missing node or an exception
    while mapping all give no articles. */
module RedditRss {
  import opened Common
  import opened Kv

  const UrlPrefix := "https://www.reddit.com/r/"
  const UrlSuffix := "/new/.rss?sort=new"

  /** The attributes (xml2js `$`) of a `link` element. */
  datatype LinkAttributes = LinkAttributes(href: Option<string>)

  /** A `link` element; one without attributes has no `$` at all. */
  datatype LinkElement = LinkElement(attributes: Option<LinkAttributes>)

  /** An Atom entry; the author is read by the source but never used. */
  datatype AtomEntry = AtomEntry(title: seq<string>, link: seq<LinkElement>, updated: seq<DateText>)

  /** The `feed` element, if any, with its `entry` children. */
  datatype AtomDoc = AtomDoc(feed: Option<seq<AtomEntry>>)

  /** The request url `https://www.reddit.com/r/<subreddit>/new/.rss?sort=new`. */
  function FeedUrl(subreddit: string): (url: string)
    ensures |url| == |UrlPrefix| + |subreddit| + |UrlSuffix|
    ensures url[..|UrlPrefix|] == UrlPrefix
    ensures url[|UrlPrefix|..|url| - |UrlSuffix|] == subreddit
    ensures url[|url| - |UrlSuffix|..] == UrlSuffix
  {
    var url := UrlPrefix + subreddit + UrlSuffix;
    assert url[|UrlPrefix|..|url| - |UrlSuffix|] == subreddit;
    url
  }

  /** Distinct subreddits are fetched from distinct urls. */
  lemma FeedUrlInjective(a: string, b: string)
    requires FeedUrl(a) == FeedUrl(b)
    ensures a == b
  {
    var u := FeedUrl(a);
    assert a == u[|UrlPrefix|..|u| - |UrlSuffix|];
  }

  /** The `r/<subreddit>` tag both Reddit adapters put among an article's keywords. */
  function SubredditTag(subreddit: string): string {
    "r/" + subreddit
  }

  /** The `reddit.com/r/<subreddit>` source label of both Reddit adapters. */
  function SourceLabel(subreddit: string): string {
    "reddit.com/r/" + subreddit
  }

  /** The entries of the feed, or none when the response failed or the `feed` node
      is missing. */
  function Entries(response: Fetch<AtomDoc>): (es: seq<AtomEntry>)
    ensures !response.Ok() ==> es == []
    ensures response.Ok() && response.body.None? ==> es == []
    ensures response.Ok() && response.body.Some? ==> es == Or(response.body.value.feed, [])
    ensures es != [] ==> response.body.Some? && response.body.value.feed == Some(es)
  {
    if !response.Ok() then []
    else match response.body
      case None => []
      case Some(doc) => Or(doc.feed, [])
  }

  /** One entry as an article, or an exception: reading `href` from a first `link`
      element that has no attributes throws. A missing or empty title becomes
      `Untitled`, a missing link or href the empty url, a missing or empty date the
      current instant. */
  function EntryToArticle(subreddit: string, e: AtomEntry, now: int): (r: Option<Article>)
    ensures r.None? <==> |e.link| > 0 && e.link[0].attributes.None?
    ensures r.Some? ==> r.value.title != ""
    ensures r.Some? && FirstText(e.title).Some? ==> r.value.title == e.title[0]
    ensures r.Some? ==> (r.value.title == DefaultTitle <==> FirstText(e.title) in {None, Some(DefaultTitle)})
    ensures r.Some? ==> r.value.keywords == [SubredditTag(subreddit)]
    ensures r.Some? ==> r.value.source == SourceLabel(subreddit)
    ensures r.Some? && |e.link| == 0 ==> r.value.url == ""
    ensures r.Some? && |e.link| > 0 ==> r.value.url == Or(e.link[0].attributes.value.href, "")
    ensures r.Some? && FirstDate(e.updated).None? ==> r.value.publishedAt == now
    ensures r.Some? && FirstDate(e.updated).Some? ==> r.value.publishedAt == e.updated[0].millis
    ensures r.Some? ==> r.value.firstSeenAt == now
  {
    if |e.link| > 0 && e.link[0].attributes.None? then None
    else
      var href := if |e.link| > 0 then Or(e.link[0].attributes.value.href, "") else "";
      var date := FirstDate(e.updated);
      Some(Article(
        url := href,
        title := Or(FirstText(e.title), DefaultTitle),
        publishedAt := if date.Some? then date.value.millis else now,
        keywords := [SubredditTag(subreddit)],
        source := SourceLabel(subreddit),
        firstSeenAt := now))
  }

  /** Maps every entry in order; the first exception abandons the whole list. */
  function MapEntries(subreddit: string, es: seq<AtomEntry>, now: int): (r: Option<seq<Article>>)
    ensures r.None? <==> exists i :: 0 <= i < |es| && EntryToArticle(subreddit, es[i], now).None?
    ensures r.Some? ==> |r.value| == |es|
    ensures r.Some? ==> forall i :: 0 <= i < |es| ==> Some(r.value[i]) == EntryToArticle(subreddit, es[i], now)
  {
    if |es| == 0 then Some([])
    else
      var head := EntryToArticle(subreddit, es[0], now);
      var rest := MapEntries(subreddit, es[1..], now);
      assert forall i :: 0 < i < |es| ==> es[i] == es[1..][i - 1];
      if head.None? || rest.None? then None else Some([head.value] + rest.value)
  }

  /** `fetchRedditRSS(subreddit)` given the response to the request for
      `FeedUrl(subreddit)`: one article per entry, in order, none filtered; any
      exception while mapping is caught and gives no articles. */
  function FetchRedditRss(subreddit: string, response: Fetch<AtomDoc>, now: int): (r: seq<Article>)
    ensures !response.Ok() ==> r == []
    ensures r == [] || |r| == |Entries(response)|
    ensures r != [] ==> forall i :: 0 <= i < |r| ==> Some(r[i]) == EntryToArticle(subreddit, Entries(response)[i], now)
    ensures forall i :: 0 <= i < |r| ==> r[i].keywords == [SubredditTag(subreddit)]
    ensures forall i :: 0 <= i < |r| ==> r[i].source == SourceLabel(subreddit)
    ensures (forall e :: e in Entries(response) ==> EntryToArticle(subreddit, e, now).Some?)
            ==> |r| == |Entries(response)|
  {
    var es := Entries(response);
    var mapped := MapEntries(subreddit, es, now);
    assert (forall e :: e in es ==> EntryToArticle(subreddit, e, now).Some?) ==> mapped.Some? by {
      if mapped.None? {
        var i :| 0 <= i < |es| && EntryToArticle(subreddit, es[i], now).None?;
        assert es[i] in es;
      }
    }
    Or(mapped, [])
  }
}

=== FILE: sorting.dfy ===
/** `Array.prototype.sort` with a comparator on `published_at`, as both routes use it.
    The ECMAScript sort is stable, so articles with equal instants keep their
    relative order; it is modelled here as a stable insertion sort. */
module Sorting {
  import opened Kv

  /** `a - b` sorts oldest first (the update route), `b - a` newest first (the feed). */
  datatype Direction = Ascending | Descending

  /** `x` may stand before `y` in direction `d`. */
  predicate InOrder(d: Direction, x: int, y: int) {
    match d
    case Ascending => x <= y
    case Descending => x >= y
  }

  predicate SortedBy(d: Direction, xs: seq<Article>) {
    forall i, j :: 0 <= i < j < |xs| ==> InOrder(d, xs[i].publishedAt, xs[j].publishedAt)
  }

  /** An element that may follow every element of a sorted list extends it. */
  lemma SortedAppend(d: Direction, xs: seq<Article>, x: Article)
    requires SortedBy(d, xs)
    requires forall k :: 0 <= k < |xs| ==> InOrder(d, xs[k].publishedAt, x.publishedAt)
    ensures SortedBy(d, xs + [x])
  {
    var ys := xs + [x];
    forall i, j | 0 <= i < j < |ys|
      ensures InOrder(d, ys[i].publishedAt, ys[j].publishedAt)
    {
      assert ys[i] == xs[i];
      if j < |xs| {
        assert ys[j] == xs[j];
      }
    }
  }

  /** An element that may precede every element of a sorted list extends it. */
  lemma SortedPrepend(d: Direction, x: Article, xs: seq<Article>)
    requires SortedBy(d, xs)
    requires forall k :: 0 <= k < |xs| ==> InOrder(d, x.publishedAt, xs[k].publishedAt)
    ensures SortedBy(d, [x] + xs)
  {
    var ys := [x] + xs;
    forall i, j | 0 <= i < j < |ys|
      ensures InOrder(d, ys[i].publishedAt, ys[j].publishedAt)
    {
      assert ys[j] == xs[j - 1];
      if i > 0 {
        assert ys[i] == xs[i - 1];
      }
    }
  }

  /** The articles of `xs` published at instant `t`, in their order in `xs`. */
  function WithInstant(xs: seq<Article>, t: int): seq<Article> {
    if |xs| == 0 then []
    else if xs[0].publishedAt == t then [xs[0]] + WithInstant(xs[1..], t)
    else WithInstant(xs[1..], t)
  }

  /** Places `x` in front of the first element it may precede, so that `x` ends up
      before every element with the same instant. */
  function Insert(d: Direction, x: Article, xs: seq<Article>): (r: seq<Article>)
    ensures multiset(r) == multiset(xs) + multiset{x}
    ensures SortedBy(d, xs) ==> SortedBy(d, r)
  {
    if |xs| == 0 || InOrder(d, x.publishedAt, xs[0].publishedAt) then
      assert SortedBy(d, xs) ==> SortedBy(d, [x] + xs) by {
        if SortedBy(d, xs) {
          SortedPrepend(d, x, xs);
        }
      }
      [x] + xs
    else
      var rest := Insert(d, x, xs[1..]);
      assert xs == [xs[0]] + xs[1..];
      assert SortedBy(d, xs) ==> SortedBy(d, [xs[0]] + rest) by {
        if SortedBy(d, xs) {
          forall k | 0 <= k < |rest|
            ensures InOrder(d, xs[0].publishedAt, rest[k].publishedAt)
          {
            assert rest[k] in multiset(rest);
            assert rest[k] == x || rest[k] in multiset(xs[1..]);
          }
          SortedPrepend(d, xs[0], rest);
        }
      }
      [xs[0]] + rest
  }

  /** The sorted permutation of `xs`. */
  function Sort(d: Direction, xs: seq<Article>): (r: seq<Article>)
    ensures multiset(r) == multiset(xs)
    ensures |r| == |xs|
    ensures SortedBy(d, r)
  {
    if |xs| == 0 then []
    else
      assert xs == [xs[0]] + xs[1..];
      Insert(d, xs[0], Sort(d, xs[1..]))
  }

  /** Inserting `x` affects only the articles published at `x`'s own instant, and
      among them `x` comes first. */
  lemma {:induction false} InsertWithInstant(d: Direction, x: Article, xs: seq<Article>, t: int)
    ensures WithInstant(Insert(d, x, xs), t)
         == (if x.publishedAt == t then [x] else []) + WithInstant(xs, t)
  {
    if |xs| == 0 || InOrder(d, x.publishedAt, xs[0].publishedAt) {
      assert ([x] + xs)[1..] == xs;
    } else {
      var rest := Insert(d, x, xs[1..]);
      assert ([xs[0]] + rest)[1..] == rest;
      InsertWithInstant(d, x, xs[1..], t);
      // x was passed over, so it is strictly out of order with xs[0].
      assert xs[0].publishedAt != x.publishedAt;
    }
  }

  /** The sort is stable: for every instant, the articles published at that instant
      appear in the output in the order they had in the input. */
  lemma {:induction false} SortIsStable(d: Direction, xs: seq<Article>, t: int)
    ensures WithInstant(Sort(d, xs), t) == WithInstant(xs, t)
  {
    if |xs| > 0 {
      SortIsStable(d, xs[1..], t);
      InsertWithInstant(d, xs[0], Sort(d, xs[1..]), t);
    }
  }

  /** Sorting a list that is already in order leaves it unchanged. */
  lemma {:induction false} SortSorted(d: Direction, xs: seq<Article>)
    requires SortedBy(d, xs)
    ensures Sort(d, xs) == xs
  {
    if |xs| > 0 {
      SortSorted(d, xs[1..]);
      assert xs == [xs[0]] + xs[1..];
      if |xs| > 1 {
        assert InOrder(d, xs[0].publishedAt, xs[1].publishedAt);
      }
    }
  }
}

=== FILE: strings.dfy ===
/** The JavaScript string operations the adapters and the timeline rely on:
    `String.prototype.split` on a one-character separator, `String.prototype.trim`,
    and the decimal rendering of a small natural number in a template literal.
 */
module Strings {

  /** The characters `trim` removes: ECMAScript WhiteSpace (tab, vertical tab, form
      feed, space, no-break space, zero width no-break space and every other
      space separator) and LineTerminator (line feed, carriage return, line and
      paragraph separator). */
  predicate IsWhitespace(c: char) {
    || c == '\t' || c == '\n' || c == '\U{000B}' || c == '\U{000C}' || c == '\r'
    || c == ' ' || c == '\U{00A0}' || c == '\U{1680}'
    || ('\U{2000}' <= c <= '\U{200A}')
    || c == '\U{2028}' || c == '\U{2029}' || c == '\U{202F}' || c == '\U{205F}'
    || c == '\U{3000}' || c == '\U{FEFF}'
  }

  predicate AllWhitespace(s: string) {
    forall i :: 0 <= i < |s| ==> IsWhitespace(s[i])
  }

  /** Neither end of `s` is whitespace. */
  predicate Trimmed(s: string) {
    s == [] || (!IsWhitespace(s[0]) && !IsWhitespace(s[|s| - 1]))
  }

  /** The length of the longest all-whitespace prefix of `s`. */
  function LeadingWhitespace(s: string): (n: nat)
    ensures n <= |s|
    ensures forall i :: 0 <= i < n ==> IsWhitespace(s[i])
    ensures n < |s| ==> !IsWhitespace(s[n])
  {
    if |s| == 0 || !IsWhitespace(s[0]) then 0 else 1 + LeadingWhitespace(s[1..])
  }

  /** The index where the longest all-whitespace suffix of `s` starts. */
  function TrailingWhitespace(s: string): (n: nat)
    ensures n <= |s|
    ensures forall i :: n <= i < |s| ==> IsWhitespace(s[i])
    ensures n > 0 ==> !IsWhitespace(s[n - 1])
  {
    if |s| == 0 || !IsWhitespace(s[|s| - 1]) then |s| else TrailingWhitespace(s[..|s| - 1])
  }

  /** `s.trim()`: `s` without its leading and trailing whitespace. */
  function Trim(s: string): (r: string)
    ensures Trimmed(r)
    ensures forall i :: 0 <= i < |r| ==> r[i] in s
  {
    var t := s[LeadingWhitespace(s)..];
    t[..TrailingWhitespace(t)]
  }

  /** `Trim` removes whitespace only: `s` is the trimmed string wrapped in whitespace. */
  lemma TrimRemovesOnlyWhitespace(s: string)
    ensures exists p, q :: s == p + Trim(s) + q && AllWhitespace(p) && AllWhitespace(q)
  {
    var n := LeadingWhitespace(s);
    var t := s[n..];
    var m := TrailingWhitespace(t);
    assert s == s[..n] + t[..m] + t[m..];
    assert AllWhitespace(s[..n]);
    assert AllWhitespace(t[m..]);
  }

  /** A string that is already trimmed is left alone. */
  lemma TrimTrimmed(s: string)
    requires Trimmed(s)
    ensures Trim(s) == s
  {
    assert LeadingWhitespace(s) == 0;
    assert TrailingWhitespace(s) == |s|;
  }

  /** The inverse of `Split`: the parts glued back together with `sep`. */
  function Join(parts: seq<string>, sep: char): string
    requires |parts| >= 1
  {
    if |parts| == 1 then parts[0] else parts[0] + [sep] + Join(parts[1..], sep)
  }

  /** `s.split(sep)`: the maximal separator-free pieces between occurrences of `sep`;
      the empty string splits into one empty piece. */
  function Split(s: string, sep: char): (parts: seq<string>)
    ensures |parts| >= 1
    ensures forall i :: 0 <= i < |parts| ==> sep !in parts[i]
    ensures Join(parts, sep) == s
  {
    if |s| == 0 then [""]
    else
      var rest := Split(s[1..], sep);
      if s[0] == sep then
        assert Join([""] + rest, sep) == [sep] + Join(rest, sep) by {
          assert ([""] + rest)[1..] == rest;
        }
        [""] + rest
      else
        JoinExtendsFirst(s[0], rest, sep);
        [[s[0]] + rest[0]] + rest[1..]
  }

  /** Prepending a character to the first part prepends it to the joined string. */
  lemma JoinExtendsFirst(c: char, parts: seq<string>, sep: char)
    requires |parts| >= 1
    ensures Join([[c] + parts[0]] + parts[1..], sep) == [c] + Join(parts, sep)
  {
    var ext := [[c] + parts[0]] + parts[1..];
    if |parts| > 1 {
      assert ext[1..] == parts[1..];
    }
  }

  /** Splitting a separator-free string yields that string alone. */
  lemma {:induction false} SplitNoSeparator(s: string, sep: char)
    requires sep !in s
    ensures Split(s, sep) == [s]
  {
    if |s| > 0 {
      SplitNoSeparator(s[1..], sep);
      assert [s[0]] + s[1..] == s;
    }
  }

  /** Splitting at the first separator peels off the first piece. */
  lemma {:induction false} SplitAtSeparator(x: string, y: string, sep: char)
    requires sep !in x
    ensures Split(x + [sep] + y, sep) == [x] + Split(y, sep)
  {
    if |x| == 0 {
      assert x + [sep] + y == [sep] + y;
      assert ([sep] + y)[1..] == y;
    } else {
      var s := x + [sep] + y;
      assert s[1..] == x[1..] + [sep] + y;
      SplitAtSeparator(x[1..], y, sep);
      assert [x[0]] + x[1..] == x;
    }
  }

  /** Splitting at any separator concatenates the pieces on either side. */
  lemma {:induction false} SplitConcat(x: string, y: string, sep: char)
    ensures Split(x + [sep] + y, sep) == Split(x, sep) + Split(y, sep)
  {
    if |x| == 0 {
      assert x + [sep] + y == [sep] + y;
      SplitCons(sep, y, sep);
    } else {
      var t := x[1..];
      assert x + [sep] + y == [x[0]] + (t + [sep] + y);
      assert x == [x[0]] + t;
      SplitCons(x[0], t + [sep] + y, sep);
      SplitCons(x[0], t, sep);
      SplitConcat(t, y, sep);
      var a, b := Split(t, sep), Split(y, sep);
      if x[0] == sep {
        ConsAssoc("", a, b);
      } else {
        HeadTail(a, b);
        ConsAssoc([x[0]] + a[0], a[1..], b);
      }
    }
  }

  lemma ConsAssoc<T>(h: T, a: seq<T>, b: seq<T>)
    ensures [h] + (a + b) == ([h] + a) + b
  {
  }

  lemma ConcatAssoc<T>(a: seq<T>, b: seq<T>, c: seq<T>)
    ensures a + (b + c) == (a + b) + c
  {
  }

  lemma ConcatEmpty<T>(a: seq<T>, b: seq<T>)
    ensures a + [] + b == a + b
  {
  }

  lemma SplitAt<T>(a: seq<T>, i: nat)
    requires i < |a|
    ensures a == a[..i] + ([a[i]] + a[i + 1..])
  {
  }

  lemma HeadTail<T>(a: seq<T>, b: seq<T>)
    requires |a| > 0
    ensures (a + b)[0] == a[0] && (a + b)[1..] == a[1..] + b
  {
  }

  /** One step of `Split`: a leading separator opens a new empty piece, any other
      character extends the first piece. */
  lemma SplitCons(c: char, t: string, sep: char)
    ensures Split([c] + t, sep)
         == if c == sep then [""] + Split(t, sep) else [[c] + Split(t, sep)[0]] + Split(t, sep)[1..]
  {
    assert ([c] + t)[0] == c && ([c] + t)[1..] == t;
  }

  /** `Split` inverts `Join` on separator-free parts. */
  lemma {:induction false} SplitJoin(parts: seq<string>, sep: char)
    requires |parts| >= 1
    requires forall i :: 0 <= i < |parts| ==> sep !in parts[i]
    ensures Split(Join(parts, sep), sep) == parts
  {
    if |parts| == 1 {
      SplitNoSeparator(parts[0], sep);
    } else {
      SplitAtSeparator(parts[0], Join(parts[1..], sep), sep);
      SplitJoin(parts[1..], sep);
      assert [parts[0]] + parts[1..] == parts;
    }
  }

  /** The decimal digits of `n`, as a template literal renders a number. */
  function NatToString(n: nat): (s: string)
    ensures |s| >= 1
    ensures forall i :: 0 <= i < |s| ==> '0' <= s[i] <= '9'
    ensures n > 0 ==> s[0] != '0'
    decreases n
  {
    if n < 10 then [Digit(n)] else NatToString(n / 10) + [Digit(n % 10)]
  }

  function Digit(d: nat): (c: char)
    requires d < 10
    ensures '0' <= c <= '9'
  {
    (('0' as int) + d) as char
  }

  /** The inverse of `NatToString`: the value of a string of decimal digits. */
  function DecimalValue(s: string): nat
    requires forall i :: 0 <= i < |s| ==> '0' <= s[i] <= '9'
  {
    if |s| == 0 then 0 else 10 * DecimalValue(s[..|s| - 1]) + ((s[|s| - 1] as int) - ('0' as int))
  }

  /** Reading back the rendered digits gives the number: the rendering is injective. */
  lemma {:induction false} DecimalRoundTrip(n: nat)
    ensures DecimalValue(NatToString(n)) == n
    decreases n
  {
    var s := NatToString(n);
    if n >= 10 {
      DecimalRoundTrip(n / 10);
      assert s[..|s| - 1] == NatToString(n / 10);
    }
  }
}

=== FILE: timeline.dfy ===
/** The timeline grouping of src/app/components/Feed.tsx (the `smartGroups` part of
    the `useMemo` body): each article gets a bucket title from its age in whole
    hours, and consecutive articles with equal titles form one group. The current
    instant is a parameter, and the calendar label of an older article comes from a
    date-formatting function passed in. */
module Timeline {
  import opened Kv
  import opened Strings

  const HourMillis: int := 3_600_000
  const Latest := "Latest"

  /** A label `format(pubDate, 'MMMM d, yyyy')` can produce; every such label
      contains a comma, which is all the grouping relies on. */
  type DateLabel = s: string | ',' in s witness ","

  /** `differenceInHours(now, t)`: the whole hours from `t` to `now`, truncated
      toward zero (so every future instant is less than one hour away). */
  function DiffHours(now: int, t: int): (h: int)
    ensures h < 1 <==> now - t < HourMillis
    ensures h >= 24 <==> now - t >= 24 * HourMillis
    ensures h >= 1 ==> h * HourMillis <= now - t < (h + 1) * HourMillis
  {
    var d := now - t;
    if d >= 0 then d / HourMillis else -((-d) / HourMillis)
  }

  /** The template `${n} Hour${n === 1 ? '' : 's'} Ago`: the decimal digits of `n`,
      a space, then `Hour Ago` for one hour and `Hours Ago` otherwise. It never
      contains a comma and is never `Latest`, so the three kinds of title cannot
      collide. */
  function HoursAgo(n: nat): (title: string)
    ensures ',' !in title && title != Latest
    ensures |title| > |NatToString(n)| + 4
    ensures title[..|NatToString(n)|] == NatToString(n) && title[|NatToString(n)|] == ' '
    ensures title[|title| - 4..] == " Ago"
    ensures n == 1 <==> |title| == |NatToString(n)| + 9
    ensures n == 1 ==> title == "1 Hour Ago"
  {
    var digits := NatToString(n);
    var title := digits + (if n == 1 then " Hour" else " Hours") + " Ago";
    assert title[0] != Latest[0];
    title
  }

  /** The bucket title of an article: `Latest` under one hour old (or in the
      future), `N Hour(s) Ago` from one to 23 whole hours, the calendar label from
      24 hours on. */
  function BucketTitle(now: int, calendar: int -> DateLabel, a: Article): (title: string)
    ensures title != ""
    ensures title == Latest <==> now - a.publishedAt < HourMillis
    ensures ',' in title <==> now - a.publishedAt >= 24 * HourMillis
    ensures ',' in title ==> title == calendar(a.publishedAt)
    ensures HourMillis <= now - a.publishedAt < 24 * HourMillis ==> title == HoursAgo(DiffHours(now, a.publishedAt))
    ensures HourMillis <= now - a.publishedAt < 2 * HourMillis ==> title == "1 Hour Ago"
  {
    var h := DiffHours(now, a.publishedAt);
    if h < 1 then Latest
    else if h < 24 then HoursAgo(h)
    else calendar(a.publishedAt)
  }

  /** Different hour counts give different titles: the digits run up to the first
      space, and they read back as the count. */
  lemma {:induction false} HoursAgoInjective(m: nat, n: nat)
    requires HoursAgo(m) == HoursAgo(n)
    ensures m == n
  {
    var dm, dn := NatToString(m), NatToString(n);
    var s := HoursAgo(m);
    assert forall k :: 0 <= k < |dm| ==> s[k] == dm[k];
    assert forall k :: 0 <= k < |dn| ==> s[k] == dn[k];
    assert s[|dm|] == ' ' && s[|dn|] == ' ';
    assert |dm| == |dn|;
    assert dm == s[..|dm|] == dn;
    DecimalRoundTrip(m);
    DecimalRoundTrip(n);
  }

  /** One hour takes the singular. */
  lemma HoursAgoOne()
    ensures HoursAgo(1) == "1 Hour Ago"
  {
  }

  /** Any other count takes the plural. */
  lemma HoursAgoExamples()
    ensures HoursAgo(5) == "5 Hours Ago"
    ensures HoursAgo(23) == "23 Hours Ago"
  {
    HoursAgoPlural(5);
    HoursAgoPlural(23);
    assert NatToString(23) == "23";
  }

  /** The plural template, spelled out. */
  lemma HoursAgoPlural(n: nat)
    requires n != 1
    ensures HoursAgo(n) == NatToString(n) + " Hours Ago"
  {
  }


  /** One timeline group. */
  datatype Group = Group(title: string, items: seq<Article>)

  function Flatten(gs: seq<Group>): seq<Article> {
    if |gs| == 0 then [] else gs[0].items + Flatten(gs[1..])
  }

  lemma {:induction false} FlattenAppend(gs: seq<Group>, g: Group)
    ensures Flatten(gs + [g]) == Flatten(gs) + g.items
  {
    if |gs| == 0 {
      assert [g][1..] == [];
    } else {
      assert (gs + [g])[1..] == gs[1..] + [g];
      FlattenAppend(gs[1..], g);
    }
  }

  /** Every article of `g` has `g`'s title. */
  predicate Uniform(g: Group, titleOf: Article -> string) {
    forall a :: a in g.items ==> titleOf(a) == g.title
  }

  /** The shape of a list of groups: none is empty, each is uniform in title, and
      neighbouring groups have different titles. */
  ghost predicate WellFormed(gs: seq<Group>, titleOf: Article -> string) {
    && (forall k :: 0 <= k < |gs| ==> |gs[k].items| > 0 && Uniform(gs[k], titleOf))
    && (forall k, l :: 0 <= k && l == k + 1 && l < |gs| ==> gs[k].title != gs[l].title)
  }

  /** `gs` groups `xs`: well-formed groups that concatenate back to `xs`. */
  ghost predicate Grouping(gs: seq<Group>, xs: seq<Article>, titleOf: Article -> string) {
    Flatten(gs) == xs && WellFormed(gs, titleOf)
  }

  /** Closing a non-empty uniform group whose title differs from the last one keeps
      the list well-formed. */
  lemma CloseGroup(gs: seq<Group>, g: Group, titleOf: Article -> string)
    requires WellFormed(gs, titleOf)
    requires |g.items| > 0 && Uniform(g, titleOf)
    requires |gs| > 0 ==> gs[|gs| - 1].title != g.title
    ensures WellFormed(gs + [g], titleOf)
    ensures Flatten(gs + [g]) == Flatten(gs) + g.items
  {
    FlattenAppend(gs, g);
    var hs := gs + [g];
    forall k | 0 <= k < |hs|
      ensures |hs[k].items| > 0 && Uniform(hs[k], titleOf)
    {
      if k < |gs| {
        assert hs[k] == gs[k];
      } else {
        assert hs[k] == g;
      }
    }
    forall k, l | 0 <= k && l == k + 1 && l < |hs|
      ensures hs[k].title != hs[l].title
    {
      assert hs[k] == gs[k];
      if l < |gs| {
        assert hs[l] == gs[l];
      } else {
        assert hs[l] == g;
      }
    }
  }

  /** The variables of the `smartGroups` loop: the closed groups, the title of the
      open group (empty before the first article) and its articles. */
  datatype Scan = Scan(groups: seq<Group>, currentTitle: string, currentGroup: seq<Article>)

  /** One iteration: a title change closes the open group, if there is one, and
      opens a new group; an equal title appends to the open group. Either way the
      closed groups are kept and the article ends the open group under its title. */
  function Advance(st: Scan, title: string, article: Article): (r: Scan)
    ensures st.groups <= r.groups
    ensures r.currentTitle == title && |r.currentGroup| > 0 && r.currentGroup[|r.currentGroup| - 1] == article
  {
    if title != st.currentTitle then
      Scan(Close(st), title, [article])
    else
      Scan(st.groups, st.currentTitle, st.currentGroup + [article])
  }

  /** An iteration loses nothing: for a non-empty title, closing up afterwards
      groups exactly one more article, this one, at the end. */
  lemma AdvanceGroupsArticle(st: Scan, title: string, article: Article)
    requires title != ""
    ensures Flatten(Close(Advance(st, title, article))) == Flatten(Close(st)) + [article]
  {
    if title == st.currentTitle {
      CloseFlatten(st);
      FlattenAppend(st.groups, Group(title, st.currentGroup + [article]));
      ConcatAssoc(Flatten(st.groups), st.currentGroup, [article]);
    } else {
      FlattenAppend(Close(st), Group(title, [article]));
    }
  }

  /** The groups once the open group, if there is one, is closed: the closed groups
      are kept as they are, followed by the open group exactly when a title is open. */
  function Close(st: Scan): (r: seq<Group>)
    ensures st.groups <= r && |r| <= |st.groups| + 1
    ensures |r| == |st.groups| + 1 <==> st.currentTitle != ""
    ensures st.currentTitle != "" ==> r[|st.groups|] == Group(st.currentTitle, st.currentGroup)
  {
    if st.currentTitle != "" then st.groups + [Group(st.currentTitle, st.currentGroup)] else st.groups
  }

  /** The articles the closed-up groups hold are those of the closed groups followed
      by the open group's, if a title is open. */
  lemma CloseFlatten(st: Scan)
    ensures Flatten(Close(st)) == Flatten(st.groups) + (if st.currentTitle != "" then st.currentGroup else [])
  {
    if st.currentTitle != "" {
      FlattenAppend(st.groups, Group(st.currentTitle, st.currentGroup));
    } else {
      assert Flatten(st.groups) + [] == Flatten(st.groups);
    }
  }

  /** No article has the empty title, which the loop uses as "no open group". */
  predicate Titled(articles: seq<Article>, titleOf: Article -> string) {
    forall k :: 0 <= k < |articles| ==> titleOf(articles[k]) != ""
  }

  /** The loop state after the first `i` articles: the closed groups and the open
      one concatenate to those articles, the open group is non-empty with the title
      of the latest article, and it may be closed next to the last closed group.
      Before the first article everything is empty. */
  ghost predicate Scanned(articles: seq<Article>, i: nat, st: Scan, titleOf: Article -> string) {
    && i <= |articles|
    && (i == 0 ==> st == Scan([], "", []))
    && (i > 0 ==> st.currentTitle == titleOf(articles[i - 1]) && st.currentTitle != "")
    && (i > 0 ==> |st.currentGroup| > 0 && Uniform(Group(st.currentTitle, st.currentGroup), titleOf))
    && Flatten(st.groups) + st.currentGroup == articles[..i]
    && WellFormed(st.groups, titleOf)
    && (|st.groups| > 0 ==> st.groups[|st.groups| - 1].title != st.currentTitle)
  }

  /** Each iteration keeps the loop state consistent. */
  lemma AdvanceKeeps(articles: seq<Article>, i: nat, st: Scan, titleOf: Article -> string)
    requires i < |articles| && Scanned(articles, i, st, titleOf)
    requires titleOf(articles[i]) != ""
    ensures Scanned(articles, i + 1, Advance(st, titleOf(articles[i]), articles[i]), titleOf)
  {
    assert articles[..i + 1] == articles[..i] + [articles[i]];
    if titleOf(articles[i]) != st.currentTitle && st.currentTitle != "" {
      CloseGroup(st.groups, Group(st.currentTitle, st.currentGroup), titleOf);
    }
  }

  /** After the last article, closing the open group gives a grouping of all of
      them, empty exactly when there were no articles. */
  lemma CloseKeeps(articles: seq<Article>, st: Scan, titleOf: Article -> string)
    requires Scanned(articles, |articles|, st, titleOf)
    ensures Grouping(Close(st), articles, titleOf)
    ensures |articles| == 0 <==> Close(st) == []
  {
    assert articles[..|articles|] == articles;
    if st.currentTitle != "" {
      CloseGroup(st.groups, Group(st.currentTitle, st.currentGroup), titleOf);
    }
  }

  /** The `smartGroups` loop over a title function: a new group starts exactly when
      the title changes. The empty string stands for "no group open yet", so the
      titles must not be empty. */
  method SmartGroups(articles: seq<Article>, titleOf: Article -> string) returns (groups: seq<Group>)
    requires Titled(articles, titleOf)
    ensures Grouping(groups, articles, titleOf)
    ensures |articles| == 0 <==> groups == []
  {
    var st := Scan([], "", []);
    var i := 0;
    while i < |articles|
      invariant Scanned(articles, i, st, titleOf)
    {
      var title := titleOf(articles[i]);
      AdvanceKeeps(articles, i, st, titleOf);
      st := Advance(st, title, articles[i]);
      i := i + 1;
    }
    CloseKeeps(articles, st, titleOf);
    groups := Close(st);
  }

  /** The timeline as `Feed.tsx` renders it: `SmartGroups` with the bucket title of
      each article's age. */
  method GroupByAge(articles: seq<Article>, now: int, calendar: int -> DateLabel) returns (groups: seq<Group>)
    ensures Grouping(groups, articles, a => BucketTitle(now, calendar, a))
    ensures |articles| == 0 <==> groups == []
  {
    groups := SmartGroups(articles, a => BucketTitle(now, calendar, a));
  }

  lemma NoGroupsForNothing(gs: seq<Group>, titleOf: Article -> string)
    requires Grouping(gs, [], titleOf)
    ensures gs == []
  {
  }

  /** The article right after the first group, if any, has a different title. */
  lemma AfterFirstGroup(gs: seq<Group>, xs: seq<Article>, titleOf: Article -> string)
    requires Grouping(gs, xs, titleOf) && |gs| > 0
    ensures |gs[0].items| < |xs| ==> titleOf(xs[|gs[0].items|]) != gs[0].title
  {
    var n := |gs[0].items|;
    assert xs == gs[0].items + Flatten(gs[1..]);
    if n < |xs| {
      assert |gs| > 1;
      assert Flatten(gs[1..]) == gs[1].items + Flatten(gs[2..]);
      assert xs[n] == gs[1].items[0];
      assert titleOf(xs[n]) == gs[1].title;
    }
  }

  /** Every article of the first group has the title of the first article. */
  lemma FirstGroupTitles(gs: seq<Group>, xs: seq<Article>, titleOf: Article -> string)
    requires Grouping(gs, xs, titleOf) && |gs| > 0
    ensures |gs[0].items| <= |xs|
    ensures forall j :: 0 <= j < |gs[0].items| ==> xs[j] == gs[0].items[j]
    ensures forall j :: 0 <= j < |gs[0].items| ==> titleOf(xs[j]) == gs[0].title
  {
    assert xs == gs[0].items + Flatten(gs[1..]);
    forall j | 0 <= j < |gs[0].items|
      ensures titleOf(xs[j]) == gs[0].title
    {
      assert xs[j] == gs[0].items[j] && gs[0].items[j] in gs[0].items;
    }
  }

  /** The first group of a grouping cannot be shorter than the first group of
      another grouping of the same articles. */
  lemma FirstGroupMaximal(gs: seq<Group>, hs: seq<Group>, xs: seq<Article>, titleOf: Article -> string)
    requires Grouping(gs, xs, titleOf) && Grouping(hs, xs, titleOf)
    requires |gs| > 0 && |hs| > 0
    ensures |gs[0].items| >= |hs[0].items|
  {
    FirstGroupTitles(gs, xs, titleOf);
    FirstGroupTitles(hs, xs, titleOf);
    AfterFirstGroup(gs, xs, titleOf);
    assert gs[0].title == hs[0].title by {
      assert titleOf(xs[0]) == gs[0].title;
    }
  }

  /** The grouping of a list is unique: the properties `SmartGroups` guarantees
      determine its result completely. */
  lemma {:induction false} GroupingUnique(gs: seq<Group>, hs: seq<Group>, xs: seq<Article>, titleOf: Article -> string)
    requires Grouping(gs, xs, titleOf) && Grouping(hs, xs, titleOf)
    ensures gs == hs
    decreases |gs|
  {
    if |gs| == 0 {
      NoGroupsForNothing(hs, titleOf);
    } else if |hs| == 0 {
      NoGroupsForNothing(gs, titleOf);
    } else {
      FirstGroupMaximal(gs, hs, xs, titleOf);
      FirstGroupMaximal(hs, gs, xs, titleOf);
      var n := |gs[0].items|;
      assert xs == gs[0].items + Flatten(gs[1..]);
      assert xs == hs[0].items + Flatten(hs[1..]);
      assert gs[0].items == xs[..n] == hs[0].items;
      assert gs[0].title == hs[0].title by {
        assert titleOf(xs[0]) == gs[0].title;
        assert titleOf(xs[0]) == hs[0].title;
      }
      var rest := xs[n..];
      assert Flatten(gs[1..]) == rest && Flatten(hs[1..]) == rest;
      assert Grouping(gs[1..], rest, titleOf) by {
        forall k, l | 0 <= k && l == k + 1 && l < |gs[1..]|
          ensures gs[1..][k].title != gs[1..][l].title
        {
          assert gs[1..][k] == gs[k + 1] && gs[1..][l] == gs[l + 1];
        }
      }
      assert Grouping(hs[1..], rest, titleOf) by {
        forall k, l | 0 <= k && l == k + 1 && l < |hs[1..]|
          ensures hs[1..][k].title != hs[1..][l].title
        {
          assert hs[1..][k] == hs[k + 1] && hs[1..][l] == hs[l + 1];
        }
      }
      GroupingUnique(gs[1..], hs[1..], rest, titleOf);
      assert gs == [gs[0]] + gs[1..] && hs == [hs[0]] + hs[1..];
    }
  }
}

=== FILE: update_route.dfy ===
/** The `GET` handler of src/app/api/update/route.ts: the settled results of the
    eleven fetches are folded into one candidate list with per-group counts, the
    candidates are stably sorted oldest first and inserted one by one into the
    store, and a summary is returned. */
module UpdateRoute {
  import opened Common
  import opened Kv
  import opened Sorting
  import Parser
  import GoogleNews
  import RedditRss
  import Strings

  const SitemapUrl := "https://particle.news/sitemap.xml"
  const GoogleTopics: seq<string> := ["GENERAL", "TECHNOLOGY", "SCIENCE", "Artificial Intelligence"]
  const Subreddits: seq<string> := ["news", "tech", "science", "artificial", "ChatGPT", "ArtificialInteligence"]
  const ParticleSource := "particle.news"
  const UnknownSource := "unknown"

  /** Per-group candidate counts of one run. */
  datatype Breakdown = Breakdown(particle: nat, google: nat, reddit: nat)

  /** The JSON body of a successful run. */
  datatype Summary = Summary(added: nat, totalProcessed: nat, breakdown: Breakdown)

  /** The response: the summary with status `ok`, or status 500 when an exception
      escapes (the store is unreachable). */
  datatype UpdateResponse = Completed(summary: Summary) | ServerError(status: int, error: string)

  /** The response together with the store after the run (`None`: unreachable). */
  datatype Outcome = Outcome(response: UpdateResponse, kv: Option<Store>)

  /** The promise for the sitemap text: a non-OK status throws inside `.then`. */
  function SitemapSettled(response: Fetch<Parser.SitemapDoc>): (r: Settled<Option<Parser.SitemapDoc>>)
    ensures r.Fulfilled? <==> response.Ok()
    ensures r.Fulfilled? ==> r.value == response.body
  {
    if response.Ok() then Fulfilled(response.body)
    else if response.NetworkError? then Rejected("fetch failed")
    else Rejected("Sitemap fetch failed")
  }

  /** A sitemap item as a candidate: tagged `particle.news` and stamped with the
      ingestion instant, the other fields kept. */
  function Tag(item: Parser.NewsItem, now: int): (a: Article)
    ensures a.url == item.url && a.title == item.title && a.keywords == item.keywords
    ensures a.publishedAt == item.publishedAt.millis
    ensures a.source == ParticleSource && a.firstSeenAt == now
  {
    Article(item.url, item.title, item.publishedAt.millis, item.keywords, ParticleSource, now)
  }

  /** The sitemap's contribution: nothing when the fetch was rejected or the
      parse threw, otherwise every parsed item, tagged. */
  function ParticleArticles(sitemap: Settled<Option<Parser.SitemapDoc>>, now: int): (r: seq<Article>)
    ensures sitemap.Rejected? ==> r == []
    ensures sitemap.Fulfilled? && Parser.ParseSitemap(sitemap.value).Failure? ==> r == []
    ensures sitemap.Fulfilled? && Parser.ParseSitemap(sitemap.value).Success? ==>
      var items := Parser.ParseSitemap(sitemap.value).value;
      && |r| == |items|
      && forall i :: 0 <= i < |r| ==>
           && r[i].source == ParticleSource && r[i].firstSeenAt == now
           && r[i].url == items[i].url && r[i].title == items[i].title
           && r[i].publishedAt == items[i].publishedAt.millis && r[i].keywords == items[i].keywords
  {
    match sitemap
    case Rejected(_) => []
    case Fulfilled(doc) =>
      match Parser.ParseSitemap(doc)
      case Failure(_) => []
      case Success(items) => seq(|items|, i requires 0 <= i < |items| => Tag(items[i], now))
  }

  /** `processResult`: a fulfilled source contributes all its articles and counts
      them; a rejected one contributes nothing and counts 0. */
  function ProcessResult(r: Settled<seq<Article>>): (c: (seq<Article>, nat))
    ensures c.1 == |c.0|
    ensures r.Rejected? ==> c.0 == []
    ensures r.Fulfilled? ==> c.0 == r.value
  {
    match r
    case Fulfilled(items) => (items, |items|)
    case Rejected(_) => ([], 0)
  }

  /** The articles a list of settled results appends to `allItems`, in order. */
  function Gather(rs: seq<Settled<seq<Article>>>): (r: seq<Article>)
    ensures forall a :: a in r <==> exists i :: 0 <= i < |rs| && rs[i].Fulfilled? && a in rs[i].value
  {
    if |rs| == 0 then []
    else
      assert forall i :: 0 < i < |rs| ==> rs[i] == rs[1..][i - 1];
      ProcessResult(rs[0]).0 + Gather(rs[1..])
  }

  /** The sum of the counts `processResult` returns for a list of settled results. */
  function Tally(rs: seq<Settled<seq<Article>>>): (n: nat)
    ensures forall i :: 0 <= i < |rs| && rs[i].Fulfilled? ==> |rs[i].value| <= n
    ensures n == 0 <==> forall i :: 0 <= i < |rs| ==> rs[i].Rejected? || rs[i].value == []
  {
    if |rs| == 0 then 0
    else
      assert forall i :: 0 < i < |rs| ==> rs[i] == rs[1..][i - 1];
      ProcessResult(rs[0]).1 + Tally(rs[1..])
  }

  /** The counts add up to the number of articles gathered. */
  lemma {:induction false} GatherTally(rs: seq<Settled<seq<Article>>>)
    ensures |Gather(rs)| == Tally(rs)
  {
    if |rs| > 0 {
      GatherTally(rs[1..]);
    }
  }

  lemma {:induction false} GatherAppend(a: seq<Settled<seq<Article>>>, b: seq<Settled<seq<Article>>>)
    ensures Gather(a + b) == Gather(a) + Gather(b)
    ensures Tally(a + b) == Tally(a) + Tally(b)
  {
    GatherConcat(a, b);
    TallyConcat(a, b);
  }

  lemma {:induction false} GatherConcat(a: seq<Settled<seq<Article>>>, b: seq<Settled<seq<Article>>>)
    ensures Gather(a + b) == Gather(a) + Gather(b)
  {
    if |a| == 0 {
      assert a + b == b;
    } else {
      var ab := a + b;
      assert ab[0] == a[0] && ab[1..] == a[1..] + b;
      GatherConcat(a[1..], b);
      calc {
        Gather(ab);
        ProcessResult(a[0]).0 + Gather(a[1..] + b);
        ProcessResult(a[0]).0 + (Gather(a[1..]) + Gather(b));
      }
    }
  }

  lemma {:induction false} TallyConcat(a: seq<Settled<seq<Article>>>, b: seq<Settled<seq<Article>>>)
    ensures Tally(a + b) == Tally(a) + Tally(b)
  {
    if |a| == 0 {
      assert a + b == b;
    } else {
      var ab := a + b;
      assert ab[0] == a[0] && ab[1..] == a[1..] + b;
      TallyConcat(a[1..], b);
    }
  }

  /** Gathering and tallying around one position of the list. */
  lemma GatherSplit(rs: seq<Settled<seq<Article>>>, i: nat)
    requires i < |rs|
    ensures Gather(rs) == Gather(rs[..i]) + ProcessResult(rs[i]).0 + Gather(rs[i + 1..])
    ensures Tally(rs) == Tally(rs[..i]) + ProcessResult(rs[i]).1 + Tally(rs[i + 1..])
  {
    var tail := [rs[i]] + rs[i + 1..];
    Strings.SplitAt(rs, i);
    GatherConcat(rs[..i], tail);
    TallyConcat(rs[..i], tail);
    GatherCons(rs[i], rs[i + 1..]);
    Strings.ConcatAssoc(Gather(rs[..i]), ProcessResult(rs[i]).0, Gather(rs[i + 1..]));
  }

  /** One step of gathering and tallying. */
  lemma GatherCons(r: Settled<seq<Article>>, rs: seq<Settled<seq<Article>>>)
    ensures Gather([r] + rs) == ProcessResult(r).0 + Gather(rs)
    ensures Tally([r] + rs) == ProcessResult(r).1 + Tally(rs)
  {
    assert ([r] + rs)[0] == r && ([r] + rs)[1..] == rs;
  }

  /** Failure isolation: turning one source into a rejection removes exactly its
      own articles and its own count; every other source still contributes. */
  lemma RejectedSourceIsolated(rs: seq<Settled<seq<Article>>>, i: nat, reason: string)
    requires i < |rs|
    ensures Gather(rs[i := Rejected(reason)]) == Gather(rs[..i]) + Gather(rs[i + 1..])
    ensures Gather(rs) == Gather(rs[..i]) + ProcessResult(rs[i]).0 + Gather(rs[i + 1..])
    ensures Tally(rs[i := Rejected(reason)]) == Tally(rs) - ProcessResult(rs[i]).1
  {
    var rs' := rs[i := Rejected(reason)];
    assert rs'[..i] == rs[..i] && rs'[i + 1..] == rs[i + 1..];
    GatherSplit(rs, i);
    GatherSplit(rs', i);
    Strings.ConcatEmpty(Gather(rs[..i]), Gather(rs[i + 1..]));
  }

  /** The `Article` literal the insertion loop builds from a candidate: a missing
      source becomes `unknown`; keywords and the first-seen stamp are always present
      on the candidates, so their defaults never apply. */
  function Normalize(a: Article): (b: Article)
    ensures b.url == a.url && b.title == a.title && b.publishedAt == a.publishedAt
    ensures b.keywords == a.keywords && b.firstSeenAt == a.firstSeenAt
    ensures b.source != ""
    ensures a.source != "" ==> b.source == a.source
  {
    a.(source := if a.source == "" then UnknownSource else a.source)
  }

  function NormalizeAll(xs: seq<Article>): (r: seq<Article>)
    ensures |r| == |xs|
    ensures forall i :: 0 <= i < |r| ==> r[i] == Normalize(xs[i])
  {
    if |xs| == 0 then [] else [Normalize(xs[0])] + NormalizeAll(xs[1..])
  }

  lemma NormalizeKeepsOrder(d: Direction, xs: seq<Article>)
    requires SortedBy(d, xs)
    ensures SortedBy(d, NormalizeAll(xs))
  {
  }

  /** The result of the insertion loop: how many `addArticle` calls returned true,
      and the store after the last call. */
  datatype Insertions = Insertions(added: nat, store: Store)

  /** The `for` loop: `addArticle` on each article in order, counting the
      insertions that returned true. The newly stored articles end up in front of
      the old list, and every candidate's digest ends up recorded. */
  function InsertAll(s: Store, items: seq<Article>): (r: Insertions)
    ensures r.added <= |items|
    ensures |r.store.articles| == |s.articles| + r.added
    ensures r.store.articles[r.added..] == s.articles
    ensures forall k :: 0 <= k < r.added ==> r.store.articles[k] in items
    decreases |items|
  {
    if |items| == 0 then
      Insertions(0, s)
    else
      var first := AddArticle(s, items[0]);
      var rest := InsertAll(first.store, items[1..]);
      assert forall k :: 0 <= k < rest.added ==> rest.store.articles[k] in items by {
        assert forall a :: a in items[1..] ==> a in items;
      }
      var added := if first.added then rest.added + 1 else rest.added;
      assert rest.store.articles[added..] == s.articles by {
        if first.added {
          assert rest.store.articles[rest.added..] == [items[0]] + s.articles;
        }
      }
      assert first.added ==> rest.store.articles[rest.added] == items[0];
      Insertions(added, rest.store)
  }

  /** Every candidate's digest ends up recorded, and no other. */
  lemma {:induction false} InsertAllRecords(s: Store, items: seq<Article>)
    ensures InsertAll(s, items).store.hashes == s.hashes + HashesOf(items)
    decreases |items|
  {
    if |items| > 0 {
      HashesOfCons(items);
      InsertAllRecords(AddArticle(s, items[0]).store, items[1..]);
    }
  }

  /** The insertion loop keeps the store invariant. */
  lemma {:induction false} InsertAllValid(s: Store, items: seq<Article>)
    requires Valid(s)
    ensures Valid(InsertAll(s, items).store)
    decreases |items|
  {
    if |items| > 0 {
      InsertAllValid(AddArticle(s, items[0]).store, items[1..]);
    }
  }

  /** Inserting candidates sorted oldest first leaves the newly stored articles at
      the head of the list newest first. */
  lemma {:induction false} InsertAllNewestFirst(s: Store, items: seq<Article>)
    requires SortedBy(Ascending, items)
    ensures var r := InsertAll(s, items); SortedBy(Descending, r.store.articles[..r.added])
    decreases |items|
  {
    if |items| > 0 {
      var first := AddArticle(s, items[0]);
      var rest := InsertAll(first.store, items[1..]);
      var r := InsertAll(s, items);
      assert SortedBy(Ascending, items[1..]);
      InsertAllNewestFirst(first.store, items[1..]);
      var newer := rest.store.articles[..rest.added];
      if first.added {
        assert r.store.articles[..r.added] == newer + [items[0]] by {
          assert rest.store.articles[rest.added..] == [items[0]] + s.articles;
        }
        forall k | 0 <= k < |newer|
          ensures InOrder(Descending, newer[k].publishedAt, items[0].publishedAt)
        {
          var j :| 0 <= j < |items[1..]| && items[1..][j] == newer[k];
          assert items[j + 1] == newer[k];
        }
        SortedAppend(Descending, newer, items[0]);
      } else {
        assert r.store.articles[..r.added] == newer;
      }
    }
  }

  /** Starting from a valid store, `added` counts the distinct urls among the
      candidates that the store did not hold yet. */
  lemma AddedCountsNewUrls(s: Store, items: seq<Article>)
    requires Valid(s)
    ensures InsertAll(s, items).added == |HashesOf(items) - s.hashes|
  {
    var r := InsertAll(s, items);
    InsertAllValid(s, items);
    InsertAllRecords(s, items);
    ValidCount(s);
    ValidCount(r.store);
    var h := HashesOf(items);
    UnionWithUnseen(s.hashes, h, r.store.hashes);
  }

  /** If `c` is `a` extended by `b`, `c` has as many more elements as `b` has outside `a`. */
  lemma UnionWithUnseen<T>(a: set<T>, b: set<T>, c: set<T>)
    requires c == a + b
    ensures |c| == |a| + |b - a|
  {
    assert c == a + (b - a);
    DisjointUnionSize(a, b - a);
  }

  lemma DisjointUnionSize<T>(a: set<T>, b: set<T>)
    requires a !! b
    ensures |a + b| == |a| + |b|
  {
  }

  /** After the run every candidate's url is in the store. */
  lemma CandidatesStored(s: Store, items: seq<Article>, a: Article)
    requires Valid(s) && a in items
    ensures exists b :: b in InsertAll(s, items).store.articles && b.url == a.url
  {
    var r := InsertAll(s, items);
    InsertAllValid(s, items);
    InsertAllRecords(s, items);
    assert Hash(a.url) in HashesOf(items);
    assert Hash(a.url) in HashesOf(r.store.articles);
    var b :| b in r.store.articles && Hash(b.url) == Hash(a.url);
  }

  /** The candidate list: sitemap articles, then the Google results in order, then
      the Reddit results in order. Under the stable sort this order decides which of
      two candidates with the same url and instant is stored. */
  function Candidates(sitemap: Settled<Option<Parser.SitemapDoc>>, google: seq<Settled<seq<Article>>>,
                      reddit: seq<Settled<seq<Article>>>, now: int): (r: seq<Article>)
    ensures |r| == |ParticleArticles(sitemap, now)| + Tally(google) + Tally(reddit)
    ensures r[..|ParticleArticles(sitemap, now)|] == ParticleArticles(sitemap, now)
    ensures r[|ParticleArticles(sitemap, now)|..|ParticleArticles(sitemap, now)| + Tally(google)] == Gather(google)
    ensures r[|r| - Tally(reddit)..] == Gather(reddit)
    ensures forall a :: a in r <==>
      || a in ParticleArticles(sitemap, now)
      || (exists i :: 0 <= i < |google| && google[i].Fulfilled? && a in google[i].value)
      || (exists i :: 0 <= i < |reddit| && reddit[i].Fulfilled? && a in reddit[i].value)
  {
    GatherTally(google);
    GatherTally(reddit);
    ParticleArticles(sitemap, now) + Gather(google) + Gather(reddit)
  }

  /** `a` is one of the candidates `all`, normalized. */
  predicate NormalizedCandidate(a: Article, all: seq<Article>) {
    exists c :: c in all && a == Normalize(c)
  }

  /** The candidates as the handler inserts them: sorted oldest first, then
      normalized. Same urls, so the same digests, as the candidates. */
  function Prepared(all: seq<Article>): (r: seq<Article>)
    ensures |r| == |all| && SortedBy(Ascending, r)
    ensures forall c :: c in all ==> Normalize(c) in r
    ensures forall a :: a in r ==> NormalizedCandidate(a, all)
  {
    var sorted := Sort(Ascending, all);
    var r := NormalizeAll(sorted);
    NormalizeKeepsOrder(Ascending, sorted);
    PreparedFrom(all, sorted, r);
    r
  }

  /** Preparing the candidates keeps their urls, so their digests. */
  lemma PreparedHashes(all: seq<Article>)
    ensures HashesOf(Prepared(all)) == HashesOf(all)
  {
    PreparedFrom(all, Sort(Ascending, all), Prepared(all));
  }

  lemma PreparedFrom(all: seq<Article>, sorted: seq<Article>, r: seq<Article>)
    requires multiset(sorted) == multiset(all)
    requires |r| == |sorted| && forall i :: 0 <= i < |r| ==> r[i] == Normalize(sorted[i])
    ensures forall c :: c in all ==> Normalize(c) in r
    ensures forall a :: a in r ==> NormalizedCandidate(a, all)
    ensures HashesOf(r) == HashesOf(all)
  {
    forall c | c in all
      ensures Normalize(c) in r
    {
      assert c in multiset(sorted);
      var j :| 0 <= j < |sorted| && sorted[j] == c;
      assert r[j] == Normalize(c);
    }
    forall a | a in r
      ensures NormalizedCandidate(a, all)
    {
      var j :| 0 <= j < |r| && r[j] == a;
      assert sorted[j] in multiset(all);
    }
    forall h | h in HashesOf(r)
      ensures h in HashesOf(all)
    {
      var a :| a in r && Hash(a.url) == h;
      var c :| c in all && a == Normalize(c);
    }
    forall h | h in HashesOf(all)
      ensures h in HashesOf(r)
    {
      var c :| c in all && Hash(c.url) == h;
      assert Normalize(c) in r;
    }
  }

  /** Each of the first `n` articles of `xs` is a candidate from `all`, normalized. */
  predicate NormalizedFrom(xs: seq<Article>, n: nat, all: seq<Article>) {
    n <= |xs| && forall k :: 0 <= k < n ==> NormalizedCandidate(xs[k], all)
  }

  /** Every candidate's url is the url of some article of `xs`. */
  predicate HoldsUrls(xs: seq<Article>, all: seq<Article>) {
    forall c :: c in all ==> exists b :: b in xs && b.url == c.url
  }

  /** If the first `n` elements of `xs` come from `items`, and every element of
      `items` is a normalized candidate, so is each of those `n`. */
  lemma NormalizedPrefix(xs: seq<Article>, n: nat, items: seq<Article>, all: seq<Article>)
    requires n <= |xs| && forall k :: 0 <= k < n ==> xs[k] in items
    requires forall a :: a in items ==> NormalizedCandidate(a, all)
    ensures NormalizedFrom(xs, n, all)
  {
    forall k | 0 <= k < n
      ensures NormalizedCandidate(xs[k], all)
    {
      assert xs[k] in items;
    }
  }

  /** From a valid store, `added` counts the candidate urls the store lacked, and
      every candidate url ends up stored. */
  lemma StoredCandidates(s: Store, all: seq<Article>)
    requires Valid(s)
    ensures InsertAll(s, Prepared(all)).added == |HashesOf(all) - s.hashes|
    ensures HoldsUrls(InsertAll(s, Prepared(all)).store.articles, all)
  {
    var items := Prepared(all);
    PreparedHashes(all);
    AddedCountsNewUrls(s, items);
    forall c | c in all
      ensures exists b :: b in InsertAll(s, items).store.articles && b.url == c.url
    {
      CandidatesStored(s, items, Normalize(c));
    }
  }

  /** The handler after `Promise.allSettled`. The candidates are sorted oldest first
      and inserted in that order; the store is touched only by `addArticle`, so an
      unreachable store fails the run only when there is something to insert. */
  function Run(sitemap: Settled<Option<Parser.SitemapDoc>>, google: seq<Settled<seq<Article>>>,
               reddit: seq<Settled<seq<Article>>>, kv: Option<Store>, now: int): (r: Outcome)
    ensures r.response.ServerError? <==> kv.None? && Candidates(sitemap, google, reddit, now) != []
    ensures r.response.ServerError? ==> r.response.status == 500 && r.kv.None?
    ensures r.response.Completed? ==>
      var sm := r.response.summary;
      && sm.totalProcessed == sm.breakdown.particle + sm.breakdown.google + sm.breakdown.reddit
      && sm.breakdown.particle == |ParticleArticles(sitemap, now)|
      && sm.breakdown.google == Tally(google)
      && sm.breakdown.reddit == Tally(reddit)
      && sm.added <= sm.totalProcessed
    ensures r.response.Completed? && kv.Some? ==>
      var added := r.response.summary.added;
      && r.kv.Some?
      && |r.kv.value.articles| == |kv.value.articles| + added
      && r.kv.value.articles[added..] == kv.value.articles
      && SortedBy(Descending, r.kv.value.articles[..added])
      && (Valid(kv.value) ==> Valid(r.kv.value))
      && NormalizedFrom(r.kv.value.articles, added, Candidates(sitemap, google, reddit, now))
    ensures kv.Some? && Valid(kv.value) ==>
      && r.response.Completed? && r.kv.Some?
      && r.response.summary.added == |HashesOf(Candidates(sitemap, google, reddit, now)) - kv.value.hashes|
      && HoldsUrls(r.kv.value.articles, Candidates(sitemap, google, reddit, now))
    ensures kv.None? ==> r.kv.None?
  {
    var all := Candidates(sitemap, google, reddit, now);
    GatherTally(google);
    GatherTally(reddit);
    var breakdown := Breakdown(|ParticleArticles(sitemap, now)|, Tally(google), Tally(reddit));
    match kv
    case None =>
      if all == [] then Outcome(Completed(Summary(0, 0, breakdown)), None)
      else Outcome(ServerError(500, "Internal Server Error"), None)
    case Some(s) =>
      var articles := Prepared(all);
      var ins := InsertAll(s, articles);
      InsertAllNewestFirst(s, articles);
      NormalizedPrefix(ins.store.articles, ins.added, articles, all);
      assert Valid(s) ==>
        && Valid(ins.store)
        && ins.added == |HashesOf(all) - s.hashes|
        && HoldsUrls(ins.store.articles, all)
      by {
        if Valid(s) {
          InsertAllValid(s, articles);
          StoredCandidates(s, all);
        }
      }
      Outcome(Completed(Summary(ins.added, |all|, breakdown)), Some(ins.store))
  }

  lemma SingleResult(xs: seq<Article>)
    ensures Gather([Fulfilled(xs)]) == xs && Tally([Fulfilled(xs)]) == |xs|
  {
    var rs: seq<Settled<seq<Article>>> := [Fulfilled(xs)];
    assert rs[1..] == [];
    assert ProcessResult(rs[0]) == (xs, |xs|);
  }

  /** `Run` against a reachable store, unfolded: a proof step for the concrete runs
      of the feed route. */
  lemma RunStored(sitemap: Settled<Option<Parser.SitemapDoc>>, google: seq<Settled<seq<Article>>>,
                  reddit: seq<Settled<seq<Article>>>, s: Store, now: int)
    ensures
      var all := Candidates(sitemap, google, reddit, now);
      var ins := InsertAll(s, Prepared(all));
      var breakdown := Breakdown(|ParticleArticles(sitemap, now)|, Tally(google), Tally(reddit));
      Run(sitemap, google, reddit, Some(s), now) == Outcome(Completed(Summary(ins.added, |all|, breakdown)), Some(ins.store))
  {
  }

  /** The request urls in the order of the `Promise.allSettled` array. */
  function Requests(): (urls: seq<string>)
    ensures |urls| == 1 + |GoogleTopics| + |Subreddits|
    ensures urls[0] == SitemapUrl
    ensures forall i :: 0 <= i < |GoogleTopics| ==> urls[1 + i] == GoogleNews.FeedUrl(GoogleTopics[i])
    ensures forall i :: 0 <= i < |Subreddits| ==> urls[1 + |GoogleTopics| + i] == RedditRss.FeedUrl(Subreddits[i])
  {
    [SitemapUrl]
    + seq(|GoogleTopics|, i requires 0 <= i < |GoogleTopics| => GoogleNews.FeedUrl(GoogleTopics[i]))
    + seq(|Subreddits|, i requires 0 <= i < |Subreddits| => RedditRss.FeedUrl(Subreddits[i]))
  }

  /** Only `TECHNOLOGY` has a feed of its own: the general, science and artificial
      intelligence requests all go to the top-stories feed. */
  lemma TopicsShareTopStories()
    ensures GoogleNews.FeedUrl(GoogleTopics[0]) == GoogleNews.TopStoriesUrl
    ensures GoogleNews.FeedUrl(GoogleTopics[1]) == GoogleNews.TechnologyUrl
    ensures GoogleNews.FeedUrl(GoogleTopics[2]) == GoogleNews.TopStoriesUrl
    ensures GoogleNews.FeedUrl(GoogleTopics[3]) == GoogleNews.TopStoriesUrl
  {
  }

  /** The settled Google results: the adapter catches everything, so each is fulfilled. */
  function GoogleResults(responses: seq<Fetch<GoogleNews.RssDoc>>, now: int): (rs: seq<Settled<seq<Article>>>)
    requires |responses| == |GoogleTopics|
    ensures |rs| == |GoogleTopics|
    ensures forall i :: 0 <= i < |rs| ==> rs[i] == Fulfilled(GoogleNews.FetchGoogleNews(GoogleTopics[i], responses[i], now))
  {
    seq(|GoogleTopics|, i requires 0 <= i < |GoogleTopics| =>
      Fulfilled(GoogleNews.FetchGoogleNews(GoogleTopics[i], responses[i], now)))
  }

  /** The settled Reddit results: the adapter catches everything, so each is fulfilled. */
  function RedditResults(responses: seq<Fetch<RedditRss.AtomDoc>>, now: int): (rs: seq<Settled<seq<Article>>>)
    requires |responses| == |Subreddits|
    ensures |rs| == |Subreddits|
    ensures forall i :: 0 <= i < |rs| ==> rs[i] == Fulfilled(RedditRss.FetchRedditRss(Subreddits[i], responses[i], now))
  {
    seq(|Subreddits|, i requires 0 <= i < |Subreddits| =>
      Fulfilled(RedditRss.FetchRedditRss(Subreddits[i], responses[i], now)))
  }

  /** The whole handler, given the responses to `Requests()` in order. */
  function Update(sitemap: Fetch<Parser.SitemapDoc>, google: seq<Fetch<GoogleNews.RssDoc>>,
                  reddit: seq<Fetch<RedditRss.AtomDoc>>, kv: Option<Store>, now: int): (r: Outcome)
    requires |google| == |GoogleTopics| && |reddit| == |Subreddits|
    ensures kv.Some? ==> r.response.Completed?
  {
    Run(SitemapSettled(sitemap), GoogleResults(google, now), RedditResults(reddit, now), kv, now)
  }

  /** One broken Google feed costs only its own articles: with the store reachable
      the run still completes, the other groups' counts are unchanged, and the
      Google count drops by exactly what that feed would have contributed. */
  lemma BrokenFeedIsolated(sitemap: Fetch<Parser.SitemapDoc>, google: seq<Fetch<GoogleNews.RssDoc>>,
                           reddit: seq<Fetch<RedditRss.AtomDoc>>, s: Store, now: int, i: nat)
    requires |google| == |GoogleTopics| && |reddit| == |Subreddits| && i < |google|
    ensures
      var before := Update(sitemap, google, reddit, Some(s), now).response;
      var after := Update(sitemap, google[i := NetworkError], reddit, Some(s), now).response;
      && before.Completed? && after.Completed?
      && after.summary.breakdown.particle == before.summary.breakdown.particle
      && after.summary.breakdown.reddit == before.summary.breakdown.reddit
      && after.summary.breakdown.google + |GoogleNews.FetchGoogleNews(GoogleTopics[i], google[i], now)|
         == before.summary.breakdown.google
  {
    var rs := GoogleResults(google, now);
    var rs' := GoogleResults(google[i := NetworkError], now);
    var empty := Fulfilled(GoogleNews.FetchGoogleNews(GoogleTopics[i], NetworkError, now));
    assert rs' == rs[i := empty];
    TallyReplace(rs, i, empty);
  }

  lemma TallyReplace(rs: seq<Settled<seq<Article>>>, i: nat, x: Settled<seq<Article>>)
    requires i < |rs|
    ensures Tally(rs[i := x]) + ProcessResult(rs[i]).1 == Tally(rs) + ProcessResult(x).1
  {
    var rs' := rs[i := x];
    assert rs'[..i] == rs[..i] && rs'[i + 1..] == rs[i + 1..];
    GatherSplit(rs, i);
    GatherSplit(rs', i);
  }
}
